=== FILE: README.md ===
# PathBuilder route engine in Dafny

A Dafny model of the route-construction engine of the PathBuilder Android app.
The user places pins on a map. The engine keeps the pins, the path that is
drawn (`routeGeometry`) and three derived figures: distance in miles, total
climb in feet and estimated minutes. It can snap the path to roads through the
OpenRouteService directions API. When that service fails it falls back to
extending the previous path by one straight segment. It keeps undo and redo
history and grades and saves the finished route. The model also covers the
screens that read saved routes back: the map filters, the routes list and the
statistics totals, and the mapping between stored rows and routes.

Every view-model command is a pure function from one state to the next. The
state is the immutable screen record plus the undo and redo stacks as
sequences. A command that may call the routing service takes that call's
outcome as an input (`OrsApi.Outcome`: a decoded response or a thrown
exception) and applies it at once. The haversine distance is not modelled: it
is the parameter `hav` (`Geodesy.Metric`, metres between two waypoints),
and every distance fact is stated relative to it.

Modules, one per source component:

- `Model`: `Waypoint`, `Route`, `MapLayer` (model/Waypoint.kt, model/Route.kt, MapViewModel.kt).
- `Text`: the Kotlin string operations the filters and the save guard use.
- `Geodesy`: path distance, climb, travel-time estimate and Kotlin's `Double.toInt`.
- `OrsApi`: the directions request and response shapes, and how the app reads a response.
- `RouteState`: `CreateRouteUiState` and the three recomputations: manual, service answer and fallback.
- `CreateRoute`: the composer commands, undo/redo, grading and save.
- `Persistence`: `RouteEntity` and its mappings.
- `MapFilter`: `MapViewModel` filtering and its mutators.
- `Aggregates`: the sums of `RouteListViewModel` and `StatsViewModel`.

Where the code's behaviour is surprising, the model follows the code:

- **Busy flag.** `isCalculating` is raised before every service request. It
  is cleared on success and on the incremental fallback. It is *not* cleared
  when the fallback finds no earlier geometry and recomputes manually. The
  lemmas `RouteState.SpinnerLeftOn` and `CreateRoute.SpinnerStuckScenario`
  show a reachable case: a service answer with an empty path, then a failed
  call on the next pin.
- **Save keeps history.** `saveRoute` resets the screen and shows no undo
  button, but it does not clear the undo and redo stacks. Undo after a save
  brings back the saved draft as it was before its last pin. The first pin of
  the next route turns the undo button back on, and undo then restores that
  same earlier state of the saved draft in place of the new route (`CreateRoute.SaveKeepsHiddenHistory`,
  `CreateRoute.PinAfterSaveRevivesUndo`).
- **Save drops the layer.** The map layer is not carried over a save.
- **Full recompute falls back incrementally.** Switching manual mode off with
  two or more pins re-requests the whole pin list. If that request fails, the
  incremental fallback appends the last pin to the straight-line geometry
  again and counts the last segment twice
  (`CreateRoute.ManualOffFailingRepeatsLastSegment`). `updateRouteType` in
  automatic mode takes the same path.
- **No type yet.** The engine accepts pins before a type is chosen. Estimates
  then use walking speed and the walking profile. Travel types are free
  strings: only the exact string "drive" selects driving.
- **No ordering of responses.** Requests are not sequenced. There is no
  "latest request wins" rule, and the model does not invent one.

## Model

| member | source | states |
|---|---|---|
| Model.MapLayer.Next | app/src/main/java/com/example/pathbuilder/viewmodel/MapViewModel.kt:121-124 | The layer button always switches to the other layer. |
| Model.NextInvolution | app/src/main/java/com/example/pathbuilder/viewmodel/MapViewModel.kt:120-125 | Switching the map layer twice gives back the original layer. |
| Text.Lowercase | app/src/main/java/com/example/pathbuilder/viewmodel/MapViewModel.kt:141 | Lower-casing keeps the length, turns every ASCII upper-case letter into its lower-case partner (code point + 32), leaves no upper-case ASCII letter and changes no other character. |
| Text.BlankConcat | app/src/main/java/com/example/pathbuilder/viewmodel/CreateRouteViewModel.kt:386 | `isBlank` is a property of every character: a concatenation is blank exactly when both parts are. |
| Text.BlankExamples | app/src/main/java/com/example/pathbuilder/viewmodel/MapViewModel.kt:140 | Examples: the empty string and a string of space, tab and newline are blank; "Loop" and " a " are not. |
| Text.LetterNotBlank | app/src/main/java/com/example/pathbuilder/viewmodel/CreateRouteViewModel.kt:386 | Any string holding an ASCII letter is not blank, so a route name with a letter passes the save guard. |
| Text.LowercaseIdempotent | app/src/main/java/com/example/pathbuilder/viewmodel/MapViewModel.kt:141 | Lower-casing twice is the same as lower-casing once. |
| Text.ContainsItself | app/src/main/java/com/example/pathbuilder/viewmodel/MapViewModel.kt:140 | The case-insensitive search finds a name in itself and finds the empty string everywhere. |
| Text.ContainsLowercasedName | app/src/main/java/com/example/pathbuilder/viewmodel/MapViewModel.kt:140 | The search matches a name against its lower-cased form in both directions. |
| Text.CharsEqualIgnoreCaseIsLowerEqual | app/src/main/java/com/example/pathbuilder/viewmodel/MapViewModel.kt:140 | Two characters are equal ignoring case exactly when their lower-case forms are equal. |
| Text.MatchesAtIsLowerOccurs | app/src/main/java/com/example/pathbuilder/viewmodel/MapViewModel.kt:140 | The needle matches at an offset, ignoring case, exactly when the lower-cased needle equals the lower-cased name's slice there. |
| Text.ContainsIsLowercasedSlice | app/src/main/java/com/example/pathbuilder/viewmodel/MapViewModel.kt:140 | Reference definition: the name contains the search ignoring case exactly when the lower-cased search is a slice of the lower-cased name. |
| Text.LongerNeedleNotFound | app/src/main/java/com/example/pathbuilder/viewmodel/MapViewModel.kt:140 | A search text longer than the name is never found. |
| Text.MissingCharNotFound | app/src/main/java/com/example/pathbuilder/viewmodel/MapViewModel.kt:140 | A search text holding a character that equals no character of the name, ignoring case, is never found. |
| Geodesy.DistanceMiles | app/src/main/java/com/example/pathbuilder/viewmodel/CreateRouteViewModel.kt:337-351 | Path distance is 0 for fewer than two points; otherwise it is the metre sum of neighbouring pairs divided by 1609.34. |
| Geodesy.ComputeDistanceMiles | app/src/main/java/com/example/pathbuilder/viewmodel/CreateRouteViewModel.kt:337-351 | The one-pass loop over windows of two computes exactly `DistanceMiles`. |
| Geodesy.Rise | app/src/main/java/com/example/pathbuilder/viewmodel/CreateRouteViewModel.kt:356-358 | One step's climb is the height difference when it is positive, otherwise 0. It is never negative. |
| Geodesy.ElevationGain | app/src/main/java/com/example/pathbuilder/viewmodel/CreateRouteViewModel.kt:353-361 | Total climb is never negative and is 0 for fewer than two points. |
| Geodesy.ComputeElevationGain | app/src/main/java/com/example/pathbuilder/viewmodel/CreateRouteViewModel.kt:353-361 | The loop that adds only positive differences computes exactly `ElevationGain`. |
| Geodesy.SegmentMetersAppend | app/src/main/java/com/example/pathbuilder/viewmodel/CreateRouteViewModel.kt:340-349 | Appending a point adds exactly one `hav` term, from the old last point to the new one. |
| Geodesy.DistanceAppend | app/src/main/java/com/example/pathbuilder/viewmodel/CreateRouteViewModel.kt:337-351 | Appending p to a non-empty path adds exactly hav(last, p)/1609.34 to the distance. |
| Geodesy.GainAppend | app/src/main/java/com/example/pathbuilder/viewmodel/CreateRouteViewModel.kt:353-361 | Appending p to a non-empty path adds exactly max(0, p.elevation − last.elevation) to the climb. |
| Geodesy.GainMonotone | app/src/main/java/com/example/pathbuilder/viewmodel/CreateRouteViewModel.kt:353-361 | Climb never decreases when a point is appended. A descending or level final step leaves it unchanged. |
| Geodesy.DuplicateAddsNoMeters | app/src/main/java/com/example/pathbuilder/viewmodel/CreateRouteViewModel.kt:340-349 | A point repeated back to back adds no distance when hav(x, x) = 0. |
| Geodesy.DuplicateAddsNoGain | app/src/main/java/com/example/pathbuilder/viewmodel/CreateRouteViewModel.kt:356-359 | A point repeated back to back never changes the climb. |
| Geodesy.TruncateToInt | app/src/main/java/com/example/pathbuilder/viewmodel/CreateRouteViewModel.kt:365 | `Double.toInt` rounds toward zero and saturates at the 32-bit bounds. |
| Geodesy.TruncateMonotone | app/src/main/java/com/example/pathbuilder/viewmodel/CreateRouteViewModel.kt:365 | Truncation preserves order. |
| Geodesy.SpeedMph | app/src/main/java/com/example/pathbuilder/viewmodel/CreateRouteViewModel.kt:364 | The speed is 30 mph exactly for "drive" and 3 mph for any other string. |
| Geodesy.EstimateTravelMinutes | app/src/main/java/com/example/pathbuilder/viewmodel/CreateRouteViewModel.kt:363-366 | Minutes are 0 for distance exactly 0. Otherwise they are distance/speed·60 truncated: non-negative for a non-negative distance, within 1 below the exact value while in range, and within the 32-bit range. |
| Geodesy.MinutesMonotone | app/src/main/java/com/example/pathbuilder/viewmodel/CreateRouteViewModel.kt:363-366 | A longer distance never gives fewer minutes at the same type. |
| Geodesy.DriveNoSlowerThanWalk | app/src/main/java/com/example/pathbuilder/viewmodel/CreateRouteViewModel.kt:364-365 | Driving never takes more minutes than walking the same distance. |
| Geodesy.OneDegreeOnFoot | app/src/main/java/com/example/pathbuilder/viewmodel/CreateRouteViewModel.kt:363-366 | 69.17 miles is 1383 minutes on foot and 138 by car. |
| OrsApi.Profile | app/src/main/java/com/example/pathbuilder/viewmodel/CreateRouteViewModel.kt:241-244 | The profile is "driving-car" if and only if the type is "drive"; otherwise it is "foot-walking". |
| OrsApi.BuildRequest | app/src/main/java/com/example/pathbuilder/viewmodel/CreateRouteViewModel.kt:246-247 | The request has one [longitude, latitude] pair per waypoint in order, elevation on and instructions off. |
| OrsApi.ToWaypoint | app/src/main/java/com/example/pathbuilder/viewmodel/CreateRouteViewModel.kt:268-274 | A position maps to latitude c[1] and longitude c[0]. Elevation is c[2]·3.28084 when present and 0 otherwise. |
| OrsApi.Interpret | app/src/main/java/com/example/pathbuilder/viewmodel/CreateRouteViewModel.kt:251-290 | A response is used if and only if there is no exception, no error object, a non-empty feature list and a first feature with geometry, properties, summary and readable coordinates. The result has one waypoint per position, and its distance is summary.distance/1609.34 (0 when absent). |
| OrsApi.FailureCases | app/src/main/java/com/example/pathbuilder/viewmodel/CreateRouteViewModel.kt:251-293 | Each failure cause on its own leads to the fallback: exception, error object, null or empty features, or a missing geometry, properties, summary or coordinates. |
| OrsApi.EchoRoundTrip | app/src/main/java/com/example/pathbuilder/viewmodel/CreateRouteViewModel.kt:246-274 | If the service echoes the sent positions with elevations, the app reads back each waypoint's own latitude and longitude, elevations in feet and the service's distance. |
| RouteState.RecalculateManual | app/src/main/java/com/example/pathbuilder/viewmodel/CreateRouteViewModel.kt:214-225 | Geometry becomes the given points and all three figures come from those same points. Inputs, display and history flags are untouched, and `isCalculating` is left as it was. |
| RouteState.Fallback | app/src/main/java/com/example/pathbuilder/viewmodel/CreateRouteViewModel.kt:297-335 | With fewer than two points or no previous geometry this is the manual recompute. Otherwise the geometry is the previous one plus the newest point. Distance grows by hav(second-last, last)/1609.34 and climb by that step's rise. Minutes are recomputed from the new distance and `isCalculating` is cleared. |
| RouteState.ApplyRemote | app/src/main/java/com/example/pathbuilder/viewmodel/CreateRouteViewModel.kt:276-287 | A service answer replaces the geometry. Climb is re-summed over the new path, and distance is the service's total rather than a re-sum. |
| RouteState.CalculateWithOrs | app/src/main/java/com/example/pathbuilder/viewmodel/CreateRouteViewModel.kt:227-295 | A blank key means a manual recompute. Otherwise a usable answer is applied, and any failure goes to the fallback with the geometry and figures captured before the call. |
| RouteState.TypeOrWalkSpeed | app/src/main/java/com/example/pathbuilder/viewmodel/CreateRouteViewModel.kt:217 | Estimates use driving speed exactly when "drive" was chosen; a route with no type yet is timed at walking speed. |
| RouteState.FallbackMatchesManual | app/src/main/java/com/example/pathbuilder/viewmodel/CreateRouteViewModel.kt:297-335 | When the previous state is the straight-line reading of all pins but the newest, the fallback equals a manual recompute over all pins, except that it clears `isCalculating`. |
| RouteState.SpinnerLeftOn | app/src/main/java/com/example/pathbuilder/viewmodel/CreateRouteViewModel.kt:297-305 | With a key, a failed call and no previous geometry, `isCalculating` (raised at line 239) stays true. |
| RouteState.SpinnerClearedOtherwise | app/src/main/java/com/example/pathbuilder/viewmodel/CreateRouteViewModel.kt:280-334 | With a key, a usable answer or an incremental fallback clears `isCalculating`. |
| CreateRoute.SnapshotOf | app/src/main/java/com/example/pathbuilder/viewmodel/CreateRouteViewModel.kt:54-60 | A snapshot holds exactly the pins, geometry, distance, climb and minutes of the state. |
| CreateRoute.Restore | app/src/main/java/com/example/pathbuilder/viewmodel/CreateRouteViewModel.kt:172-177 | Restoring puts back exactly the snapshot's five fields and leaves every other field as it was. |
| CreateRoute.RestoreOwnSnapshot | app/src/main/java/com/example/pathbuilder/viewmodel/CreateRouteViewModel.kt:154-177 | Restoring a state's own snapshot changes nothing. |
| CreateRoute.InitialWellFormed | app/src/main/java/com/example/pathbuilder/viewmodel/CreateRouteViewModel.kt:24-52 | The opening composer has coherent history: no stacks and no undo or redo button. |
| CreateRoute.Refresh | app/src/main/java/com/example/pathbuilder/viewmodel/CreateRouteViewModel.kt:96-102 | With fewer than two pins nothing is recomputed. In manual mode the route is straight lines over the pins; otherwise the service is asked for the whole pin list. |
| CreateRoute.SetRouteType | app/src/main/java/com/example/pathbuilder/viewmodel/CreateRouteViewModel.kt:62-67 | The type is set and the dialog closed. Every other field and both stacks are unchanged, so nothing is recomputed. |
| CreateRoute.UpdateRouteType | app/src/main/java/com/example/pathbuilder/viewmodel/CreateRouteViewModel.kt:109-119 | The type is set. Name, pins, mode, dialog, layer and both buttons are untouched, and with fewer than two pins nothing else changes. With two or more pins in manual mode the route is recomputed as straight lines, minutes follow the new type's speed, `isCalculating` is kept and `saveCompleted` cleared. With two or more pins in automatic mode the whole pin list goes to the routing service with the new type. |
| CreateRoute.ToggleLayer | app/src/main/java/com/example/pathbuilder/viewmodel/CreateRouteViewModel.kt:69-75 | Only the layer changes, to the other layer. |
| CreateRoute.ToggleLayerInvolution | app/src/main/java/com/example/pathbuilder/viewmodel/CreateRouteViewModel.kt:69-75 | Toggling the layer twice restores the composer. |
| CreateRoute.StartNewRoute | app/src/main/java/com/example/pathbuilder/viewmodel/CreateRouteViewModel.kt:77-89 | Both stacks are emptied and the state returns to the defaults, keeping only the layer. The type is unset, the dialog reopens and history stays coherent. |
| CreateRoute.ToggleManualMode | app/src/main/java/com/example/pathbuilder/viewmodel/CreateRouteViewModel.kt:91-103 | The flag flips. Name, type, pins, dialog, layer, buttons and stacks are untouched. With fewer than two pins nothing else changes. Turning manual on with two or more pins gives straight lines over the pins, with `isCalculating` kept and `saveCompleted` cleared. Turning it off with two or more pins sends the whole pin list to the routing service. |
| CreateRoute.ToggleManualTwice | app/src/main/java/com/example/pathbuilder/viewmodel/CreateRouteViewModel.kt:91-103 | Toggling twice restores the flag. With fewer than two pins it restores the whole composer. |
| CreateRoute.ManualOffFailingRepeatsLastSegment | app/src/main/java/com/example/pathbuilder/viewmodel/CreateRouteViewModel.kt:91-103 | Turning manual off with a failing service appends the last pin again and counts the last segment a second time. |
| CreateRoute.UpdateRouteName | app/src/main/java/com/example/pathbuilder/viewmodel/CreateRouteViewModel.kt:105-107 | Only the name changes. |
| CreateRoute.AddPin | app/src/main/java/com/example/pathbuilder/viewmodel/CreateRouteViewModel.kt:121-152 | The pins become old ++ [p]. A snapshot of the prior five fields is pushed and the redo stack emptied if and only if there were pins before. `canUndo` reflects the undo stack and `canRedo` is false. Mode, type, layer and name are kept. The first pin, or any pin in manual mode, gives straight lines with `isCalculating` and the dialog flag kept and `saveCompleted` cleared. A later pin in automatic mode sends the whole extended pin list to the routing service. History stays coherent. |
| CreateRoute.Undo | app/src/main/java/com/example/pathbuilder/viewmodel/CreateRouteViewModel.kt:154-182 | On an empty stack nothing happens. Otherwise the current snapshot is pushed on redo and the top undo snapshot restored. `saveCompleted` is cleared, the buttons follow the stacks, and mode, type, layer, name, the dialog flag and `isCalculating` are untouched. |
| CreateRoute.Redo | app/src/main/java/com/example/pathbuilder/viewmodel/CreateRouteViewModel.kt:184-212 | This mirrors `Undo` with the stacks swapped. |
| CreateRoute.UndoThenRedo | app/src/main/java/com/example/pathbuilder/viewmodel/CreateRouteViewModel.kt:154-212 | Undo then redo restores both stacks and the five fields. On a coherent composer it restores everything except `saveCompleted`. |
| CreateRoute.RedoThenUndo | app/src/main/java/com/example/pathbuilder/viewmodel/CreateRouteViewModel.kt:154-212 | Redo then undo restores both stacks and the five fields. On a coherent composer it restores everything except `saveCompleted`. |
| CreateRoute.UndoAfterAddPin | app/src/main/java/com/example/pathbuilder/viewmodel/CreateRouteViewModel.kt:121-182 | Undoing a pin brings back the previous pins, geometry, figures and undo stack. |
| CreateRoute.ThreePinsOneUndo | app/src/main/java/com/example/pathbuilder/viewmodel/CreateRouteViewModel.kt:121-182 | Undo becomes available with the second pin, and after three pins and one undo the first two pins remain. |
| CreateRoute.AddPinFailingStaysStraight | app/src/main/java/com/example/pathbuilder/viewmodel/CreateRouteViewModel.kt:138-151 | While the service fails, adding a pin keeps geometry and figures the straight-line reading of the pins. |
| CreateRoute.AddPins | app/src/main/java/com/example/pathbuilder/viewmodel/CreateRouteViewModel.kt:121-152 | Placing a list of pins appends them in order and keeps mode and type. |
| CreateRoute.FailingServiceStaysStraight | app/src/main/java/com/example/pathbuilder/viewmodel/CreateRouteViewModel.kt:297-335 | With every call failing, any number of pins keeps the route the straight-line reading of all its pins. |
| CreateRoute.FailingServiceMatchesManualMode | app/src/main/java/com/example/pathbuilder/viewmodel/CreateRouteViewModel.kt:145-151 | With every call failing, placing pins gives the same five route fields as manual mode. |
| CreateRoute.Grade | app/src/main/java/com/example/pathbuilder/viewmodel/CreateRouteViewModel.kt:388-393 | The grade is "Hard" if and only if distance + climb/100 > 8, "Moderate" if and only if the score is in (4, 8], and "Easy" if and only if the score is ≤ 4. |
| CreateRoute.GradeBoundaries | app/src/main/java/com/example/pathbuilder/viewmodel/CreateRouteViewModel.kt:388-393 | A score of exactly 8 is Moderate and exactly 4 is Easy, from distance or from climb alike. |
| CreateRoute.GradeMonotone | app/src/main/java/com/example/pathbuilder/viewmodel/CreateRouteViewModel.kt:388-393 | A higher score never grades easier. |
| CreateRoute.Save | app/src/main/java/com/example/pathbuilder/viewmodel/CreateRouteViewModel.kt:384-413 | With a blank name or no pins nothing changes and nothing is stored. Otherwise the stored route has id 0, the draft's figures and paths, the graded difficulty and the type (default "walk"). The screen becomes the default screen with only the type kept, the dialog closed and `saveCompleted` set. The stacks are kept and the layer is not. |
| CreateRoute.SaveTwiceStoresOnce | app/src/main/java/com/example/pathbuilder/viewmodel/CreateRouteViewModel.kt:384-413 | Saving right after a save stores nothing and changes nothing, because the reset name is blank. |
| CreateRoute.PinAfterSaveRevivesUndo | app/src/main/java/com/example/pathbuilder/viewmodel/CreateRouteViewModel.kt:121-141 | After a save with history, the next pin pushes nothing, re-enables undo from the kept stack, and undo brings back the saved draft's last snapshot. |
| CreateRoute.SaveKeepsHiddenHistory | app/src/main/java/com/example/pathbuilder/viewmodel/CreateRouteViewModel.kt:405-411 | After a save the undo stack is non-empty while `canUndo` is false. Undo restores the saved draft's first pin, and so does undo after the first pin of the next route, which turns the button back on. |
| CreateRoute.SpinnerStuckScenario | app/src/main/java/com/example/pathbuilder/viewmodel/CreateRouteViewModel.kt:237-305 | An empty-path answer and then a failed call on the next pin leave `isCalculating` set. |
| Persistence.ToEntity | app/src/main/java/com/example/pathbuilder/database/RouteEntity.kt:34-45 | The id is preserved (the id = 0 branch is the identity), and every other field (name, difficulty, type, distance, climb, minutes, pins and geometry) is copied unchanged. |
| Persistence.ToModel | app/src/main/java/com/example/pathbuilder/database/RouteEntity.kt:21-32 | Converting a row to a route and back gives the same row. |
| Persistence.ModelRoundTrip | app/src/main/java/com/example/pathbuilder/database/RouteEntity.kt:21-45 | Converting a route to a row and back gives the same route. |
| Persistence.ToModels | app/src/main/java/com/example/pathbuilder/viewmodel/MapViewModel.kt:44 | Mapping rows to routes keeps length and order, and each route stores back to its row. |
| MapFilter.Bucket | app/src/main/java/com/example/pathbuilder/viewmodel/MapViewModel.kt:145-150 | Flat if and only if below 100 ft, Low if and only if in [100, 500), Medium if and only if in [500, 1500), High if and only if 1500 or more. Every climb gets exactly one bucket. |
| MapFilter.BucketMonotone | app/src/main/java/com/example/pathbuilder/viewmodel/MapViewModel.kt:145-150 | A higher climb never lands in a lower bucket. |
| MapFilter.Admits | app/src/main/java/com/example/pathbuilder/viewmodel/MapViewModel.kt:141-151 | An empty selection admits everything. A non-empty one admits exactly its members. |
| MapFilter.FilterRoutes | app/src/main/java/com/example/pathbuilder/viewmodel/MapViewModel.kt:132-154 | The result is an order-preserving subsequence of the routes. Every route in it matches, and every matching route is in it. |
| MapFilter.FilterAppend | app/src/main/java/com/example/pathbuilder/viewmodel/MapViewModel.kt:139-154 | Filtering a list extended by one route extends the result by that route exactly when it matches, so the result keeps each matching route as often as the input has it. |
| MapFilter.EmptyCriteriaKeepAll | app/src/main/java/com/example/pathbuilder/viewmodel/MapViewModel.kt:140-151 | A blank search with no selections keeps every route in order. |
| MapFilter.MatchesEachDimension | app/src/main/java/com/example/pathbuilder/viewmodel/MapViewModel.kt:139-153 | A route matches exactly when it passes the search, the type, the difficulty and the elevation selection each on its own. |
| MapFilter.TypeMatchingFoldsCase | app/src/main/java/com/example/pathbuilder/viewmodel/MapViewModel.kt:141 | A route matches exactly when the same route with its type lower-cased matches. |
| MapFilter.DifficultyMatchingIsExact | app/src/main/java/com/example/pathbuilder/viewmodel/MapViewModel.kt:142 | A route whose difficulty is selected only in another letter case is hidden. |
| MapFilter.FilterNarrowing | app/src/main/java/com/example/pathbuilder/viewmodel/MapViewModel.kt:139-153 | Narrowing any selection (a non-empty subset, same search) gives a subsequence of the wider result. |
| MapFilter.FilterIdempotent | app/src/main/java/com/example/pathbuilder/viewmodel/MapViewModel.kt:138-154 | Filtering the filtered list changes nothing. |
| MapFilter.ToggleKey | app/src/main/java/com/example/pathbuilder/viewmodel/MapViewModel.kt:73-75 | Toggling flips membership of the key and of no other key. |
| MapFilter.ToggleKeyTwice | app/src/main/java/com/example/pathbuilder/viewmodel/MapViewModel.kt:72-75 | Toggling the same key twice gives back the selection. |
| MapFilter.DefaultMapSynced | app/src/main/java/com/example/pathbuilder/viewmodel/MapViewModel.kt:23-32 | The opening state is in sync, and its selections admit every type, difficulty and climb the app produces. |
| MapFilter.OnRoutes | app/src/main/java/com/example/pathbuilder/viewmodel/MapViewModel.kt:41-57 | A new list is mapped to routes and the visible list is recomputed, with selections kept. |
| MapFilter.UpdateSearchQuery | app/src/main/java/com/example/pathbuilder/viewmodel/MapViewModel.kt:59-70 | The query is set, the other selections, the layer and the panel flag are kept, and the visible list equals the filter of the routes. |
| MapFilter.ToggleType | app/src/main/java/com/example/pathbuilder/viewmodel/MapViewModel.kt:72-86 | The type selection is toggled, the other selections, the layer and the panel flag are kept, and the visible list is back in sync. |
| MapFilter.ToggleDifficulty | app/src/main/java/com/example/pathbuilder/viewmodel/MapViewModel.kt:88-102 | The difficulty selection is toggled, the other selections, the layer and the panel flag are kept, and the visible list is back in sync. |
| MapFilter.ToggleElevationRange | app/src/main/java/com/example/pathbuilder/viewmodel/MapViewModel.kt:104-118 | The range selection is toggled, the other selections, the layer and the panel flag are kept, and the visible list is back in sync. |
| MapFilter.ToggleTwiceRestores | app/src/main/java/com/example/pathbuilder/viewmodel/MapViewModel.kt:72-118 | On a synced state, toggling the same chip twice restores the state exactly. |
| MapFilter.ToggleLayer | app/src/main/java/com/example/pathbuilder/viewmodel/MapViewModel.kt:120-126 | Only the layer changes, to the other layer, and sync is preserved. |
| MapFilter.ToggleLayerInvolution | app/src/main/java/com/example/pathbuilder/viewmodel/MapViewModel.kt:120-126 | Toggling the layer twice restores the state. |
| MapFilter.ToggleFiltersExpanded | app/src/main/java/com/example/pathbuilder/viewmodel/MapViewModel.kt:128-130 | Only the panel flag flips, and sync is preserved. |
| Aggregates.OfType | app/src/main/java/com/example/pathbuilder/viewmodel/StatsViewModel.kt:38-41 | The result keeps exactly the routes whose type equals the given string (case-sensitive). |
| Aggregates.OfTypeAppend | app/src/main/java/com/example/pathbuilder/viewmodel/StatsViewModel.kt:38-41 | Filtering by type distributes over appending a route. |
| Aggregates.SumMilesAppend | app/src/main/java/com/example/pathbuilder/viewmodel/StatsViewModel.kt:38-41 | The distance sum of a concatenation is the sum of the parts. |
| Aggregates.SumElevationAppend | app/src/main/java/com/example/pathbuilder/viewmodel/StatsViewModel.kt:34-36 | Appending a route adds its climb to the climb sum. |
| Aggregates.TotalMilesAppend | app/src/main/java/com/example/pathbuilder/viewmodel/StatsViewModel.kt:37-43 | Appending a route raises the total of its own type by its distance and leaves every other type's total unchanged. |
| Aggregates.AverageElevation | app/src/main/java/com/example/pathbuilder/viewmodel/StatsViewModel.kt:34-36 | The average climb is 0 for no routes; otherwise average × count equals the climb sum. |
| Aggregates.Stats | app/src/main/java/com/example/pathbuilder/viewmodel/StatsViewModel.kt:32-44 | The walk and drive totals sum distances over exact "walk" and "drive" matches, the average is `AverageElevation` of the mapped routes, and all figures are 0 for an empty list. |
| Aggregates.StatsAppend | app/src/main/java/com/example/pathbuilder/viewmodel/StatsViewModel.kt:37-43 | One more "walk" route raises the walk total by its distance and leaves the drive total. A route of any other type, even "Walk", moves neither total. |
| Aggregates.OnRouteList | app/src/main/java/com/example/pathbuilder/viewmodel/RouteListViewModel.kt:33-42 | The list is the rows mapped element-wise with the same length and order. Totals are the exact-match sums, and both are 0 for an empty list. |

## Left out

- Haversine trigonometry: the distance between two points is the parameter `hav`, so the 69.17-mile figure for one degree of latitude cannot be derived. What is proved is the minutes for a given mileage (`Geodesy.OneDegreeOnFoot`).
- Floating point: all arithmetic is exact `real` arithmetic. Rounding, NaN and infinities are absent, so comparisons such as `distanceMiles == 0.0` are exact.
- Coroutines and StateFlow: each command runs to completion at once. The moment in which `isCalculating` is true while a request is in flight is not observable, and concurrent or interleaved requests are not modelled.
- The Retrofit/OkHttp client, its base URL, logging and the API-key header: the outcome of a call is an input. The request body (`OrsApi.BuildRequest`) and profile (`OrsApi.Profile`) are modelled but not tied to that outcome.
- Room persistence (the database, DAO, repository and the Gson type converters): `insertRoute` is an opaque sink, so `CreateRoute.Save` returns the entity it would insert. The id the database assigns is not modelled.
- Null entries inside a decoded coordinate list, and null values in fields Kotlin declares non-null: positions are sequences of numbers.
- Text.Lowercase: case mapping covers only the ASCII letters. Kotlin's `lowercase()` and `ignoreCase` comparison also map other Unicode letters. Kotlin characters are UTF-16 units; Dafny characters are Unicode scalar values.
- `id` is a 64-bit `Long` in the source and an unbounded integer here; nothing in the core does arithmetic on it.
- The default arguments of `Route` (difficulty "Moderate", type "walk"): the core always passes every field.
- All Compose UI, including the tap guard in ui/create/CreateRouteScreen.kt that ignores pins until a type is chosen. The engine itself accepts them.
- Wiring, dependency injection and the view-model factories (MainActivity, PathBuilderApp, AppContainer).

=== FILE: aggregates.dfy ===
/** The sums over saved routes shown by the routes list and the statistics
    screen (`RouteListViewModel`, `StatsViewModel`). Both are recomputed from
    scratch on every list the store emits. */
module Aggregates {
  import opened Model
  import opened Persistence

  /** `routes.filter { it.type == routeType }`: exact, case-sensitive match. */
  function OfType(routes: seq<Route>, routeType: string): (r: seq<Route>)
    ensures |r| <= |routes|
    ensures forall x | x in r :: x.routeType == routeType
    ensures forall x | x in routes && x.routeType == routeType :: x in r
    decreases |routes|
  {
    if |routes| == 0 then []
    else (if routes[0].routeType == routeType then [routes[0]] else []) + OfType(routes[1..], routeType)
  }

  /** `sumOf { it.distanceMiles }`. */
  function SumMiles(routes: seq<Route>): real
    decreases |routes|
  {
    if |routes| == 0 then 0.0 else routes[0].distanceMiles + SumMiles(routes[1..])
  }

  /** `elevations.sum()`. */
  function SumElevation(routes: seq<Route>): real
    decreases |routes|
  {
    if |routes| == 0 then 0.0 else routes[0].elevationFeet + SumElevation(routes[1..])
  }

  /** Miles over the routes of exactly this type. */
  function TotalMiles(routes: seq<Route>, routeType: string): real {
    SumMiles(OfType(routes, routeType))
  }

  /** Filtering distributes over concatenation. */
  lemma {:induction false} OfTypeAppend(routes: seq<Route>, x: Route, routeType: string)
    ensures OfType(routes + [x], routeType)
         == OfType(routes, routeType) + (if x.routeType == routeType then [x] else [])
    decreases |routes|
  {
    if |routes| == 0 {
      assert OfType([x], routeType) == (if x.routeType == routeType then [x] else []) + OfType([], routeType);
    } else {
      assert (routes + [x])[1..] == routes[1..] + [x];
      OfTypeAppend(routes[1..], x, routeType);
    }
  }

  /** A sum of a concatenation is the sum of the parts. */
  lemma {:induction false} SumMilesAppend(a: seq<Route>, b: seq<Route>)
    ensures SumMiles(a + b) == SumMiles(a) + SumMiles(b)
    decreases |a|
  {
    if |a| == 0 {
      assert a + b == b;
    } else {
      assert (a + b)[1..] == a[1..] + b;
      SumMilesAppend(a[1..], b);
    }
  }

  lemma {:induction false} SumElevationAppend(a: seq<Route>, x: Route)
    ensures SumElevation(a + [x]) == SumElevation(a) + x.elevationFeet
    decreases |a|
  {
    if |a| > 0 {
      assert (a + [x])[1..] == a[1..] + [x];
      SumElevationAppend(a[1..], x);
    }
  }

  /** Appending a route raises the total of its own type by its distance and
      leaves the total of every other type as it was. */
  lemma TotalMilesAppend(routes: seq<Route>, x: Route, routeType: string)
    ensures x.routeType == routeType ==>
      TotalMiles(routes + [x], routeType) == TotalMiles(routes, routeType) + x.distanceMiles
    ensures x.routeType != routeType ==>
      TotalMiles(routes + [x], routeType) == TotalMiles(routes, routeType)
  {
    OfTypeAppend(routes, x, routeType);
    SumMilesAppend(OfType(routes, routeType), if x.routeType == routeType then [x] else []);
    assert SumMiles([x]) == x.distanceMiles + SumMiles([]);
  }

  /** `StatsUiState`. */
  datatype StatsUiState = StatsUiState(totalWalkMiles: real, totalDriveMiles: real, averageElevationGain: real)

  /** The average climb: 0 with no routes, else sum over count. */
  function AverageElevation(routes: seq<Route>): (avg: real)
    ensures |routes| == 0 ==> avg == 0.0
    ensures |routes| > 0 ==> avg * |routes| as real == SumElevation(routes)
  {
    if |routes| == 0 then 0.0 else SumElevation(routes) / |routes| as real
  }

  /** The statistics computed for one list emitted by the store. */
  function Stats(entities: seq<RouteEntity>): (s: StatsUiState)
    ensures s.totalWalkMiles == TotalMiles(ToModels(entities), "walk")
    ensures s.totalDriveMiles == TotalMiles(ToModels(entities), "drive")
    ensures |entities| == 0 ==> s == StatsUiState(0.0, 0.0, 0.0)
    ensures s.averageElevationGain == AverageElevation(ToModels(entities))
  {
    var routes := ToModels(entities);
    StatsUiState(TotalMiles(routes, "walk"), TotalMiles(routes, "drive"), AverageElevation(routes))
  }

  /** Storing one more "walk" route raises the walk total by its distance and
      leaves the drive total alone; a route of any other type string (even
      "Walk") moves neither total. */
  lemma StatsAppend(entities: seq<RouteEntity>, e: RouteEntity)
    ensures e.routeType == "walk" ==>
      Stats(entities + [e]).totalWalkMiles == Stats(entities).totalWalkMiles + e.distanceMiles
      && Stats(entities + [e]).totalDriveMiles == Stats(entities).totalDriveMiles
    ensures e.routeType != "walk" && e.routeType != "drive" ==>
      Stats(entities + [e]).totalWalkMiles == Stats(entities).totalWalkMiles
      && Stats(entities + [e]).totalDriveMiles == Stats(entities).totalDriveMiles
  {
    var routes := ToModels(entities);
    assert ToModels(entities + [e]) == routes + [ToModel(e)];
    TotalMilesAppend(routes, ToModel(e), "walk");
    TotalMilesAppend(routes, ToModel(e), "drive");
  }

  /** `RouteListUiState`. */
  datatype RouteListUiState = RouteListUiState(routes: seq<Route>, totalWalkMiles: real, totalDriveMiles: real)

  /** The routes-list state for one emitted list. Each emission replaces the
      whole state. */
  function OnRouteList(entities: seq<RouteEntity>): (s: RouteListUiState)
    ensures |s.routes| == |entities|
    ensures forall i | 0 <= i < |entities| :: ToEntity(s.routes[i]) == entities[i]
    ensures s.totalWalkMiles == Stats(entities).totalWalkMiles
    ensures s.totalDriveMiles == Stats(entities).totalDriveMiles
    ensures |entities| == 0 ==> s == RouteListUiState([], 0.0, 0.0)
  {
    var routes := ToModels(entities);
    RouteListUiState(routes, TotalMiles(routes, "walk"), TotalMiles(routes, "drive"))
  }
}

=== FILE: create_route.dfy ===
/** The route composer (`CreateRouteViewModel`): every user command as a whole
    transition of the screen state together with the undo and redo stacks. A
    command that may call the routing service takes that call's outcome as an
    input and applies it at once. */
module CreateRoute {
  import opened Nullable
  import opened Model
  import opened Text
  import opened Geodesy
  import opened OrsApi
  import opened RouteState
  import opened Persistence

  /** `RouteSnapshot`: the five fields undo and redo save and restore. */
  datatype Snapshot = Snapshot(
    waypoints: seq<Waypoint>,
    routeGeometry: seq<Waypoint>,
    distanceMiles: real,
    elevationFeet: real,
    estimatedTimeMinutes: int)

  /** The composer: screen state plus the two history stacks (top = last). */
  datatype Composer = Composer(ui: UiState, undo: seq<Snapshot>, redo: seq<Snapshot>)

  const Initial: Composer := Composer(DefaultUi, [], [])

  function SnapshotOf(ui: UiState): (s: Snapshot)
    ensures s.waypoints == ui.waypoints && s.routeGeometry == ui.routeGeometry
    ensures s.distanceMiles == ui.distanceMiles && s.elevationFeet == ui.elevationFeet
    ensures s.estimatedTimeMinutes == ui.estimatedTimeMinutes
  {
    Snapshot(ui.waypoints, ui.routeGeometry, ui.distanceMiles, ui.elevationFeet, ui.estimatedTimeMinutes)
  }

  /** Put a snapshot's five fields back; every other field is kept. */
  function Restore(ui: UiState, s: Snapshot): (r: UiState)
    ensures SnapshotOf(r) == s
    ensures r.(waypoints := ui.waypoints, routeGeometry := ui.routeGeometry,
               distanceMiles := ui.distanceMiles, elevationFeet := ui.elevationFeet,
               estimatedTimeMinutes := ui.estimatedTimeMinutes) == ui
  {
    ui.(
      waypoints := s.waypoints,
      routeGeometry := s.routeGeometry,
      distanceMiles := s.distanceMiles,
      elevationFeet := s.elevationFeet,
      estimatedTimeMinutes := s.estimatedTimeMinutes)
  }

  /** Restoring a state's own snapshot changes nothing. */
  lemma RestoreOwnSnapshot(ui: UiState)
    ensures Restore(ui, SnapshotOf(ui)) == ui
  {
  }

  /** The history is coherent: the undo/redo buttons reflect the stacks, every
      saved snapshot has pins, and a route with no pins has no history. */
  predicate WellFormed(c: Composer) {
    && c.ui.canUndo == (|c.undo| > 0)
    && c.ui.canRedo == (|c.redo| > 0)
    && (forall i | 0 <= i < |c.undo| :: |c.undo[i].waypoints| > 0)
    && (forall i | 0 <= i < |c.redo| :: |c.redo[i].waypoints| > 0)
    && (|c.ui.waypoints| == 0 ==> |c.undo| == 0 && |c.redo| == 0)
  }

  lemma InitialWellFormed()
    ensures WellFormed(Initial)
  {
  }

  /** The recompute of `toggleManualMode` and `updateRouteType`: nothing with
      fewer than two pins, otherwise straight lines in manual mode and the
      routing service over the whole pin list in automatic mode. */
  function Refresh(ui: UiState, env: Env, remote: Outcome): (r: UiState)
    ensures SameControls(ui, r)
    ensures |ui.waypoints| < 2 ==> r == ui
    ensures |ui.waypoints| >= 2 && ui.manualMode ==> StraightLineOver(r, ui.waypoints, env.hav)
    ensures |ui.waypoints| >= 2 && !ui.manualMode ==> r == CalculateWithOrs(ui, ui.waypoints, env, remote)
  {
    if |ui.waypoints| < 2 then ui
    else if ui.manualMode then RecalculateManual(ui, ui.waypoints, env.hav)
    else CalculateWithOrs(ui, ui.waypoints, env, remote)
  }

  /** `setRouteType`: records the type and closes the dialog. Unlike
      `updateRouteType` it recomputes nothing. */
  function SetRouteType(c: Composer, routeType: string): (r: Composer)
    ensures r.ui.routeType == Some(routeType) && !r.ui.showRouteTypeDialog
    ensures r.ui == c.ui.(routeType := Some(routeType), showRouteTypeDialog := false)
    ensures SnapshotOf(r.ui) == SnapshotOf(c.ui)
    ensures r.undo == c.undo && r.redo == c.redo
    ensures WellFormed(c) ==> WellFormed(r)
  {
    c.(ui := c.ui.(routeType := Some(routeType), showRouteTypeDialog := false))
  }

  /** `updateRouteType`: records the type and recomputes when there are at
      least two pins, so a manual route's minutes follow the new speed. */
  function UpdateRouteType(c: Composer, routeType: string, env: Env, remote: Outcome): (r: Composer)
    ensures r.ui.routeType == Some(routeType)
    ensures r.ui.showRouteTypeDialog == c.ui.showRouteTypeDialog
    ensures r.ui.waypoints == c.ui.waypoints && r.undo == c.undo && r.redo == c.redo
    ensures SameControls(c.ui.(routeType := Some(routeType)), r.ui)
    ensures |c.ui.waypoints| < 2 ==> r.ui == c.ui.(routeType := Some(routeType))
    ensures |c.ui.waypoints| >= 2 && c.ui.manualMode ==>
      StraightLineOver(r.ui, c.ui.waypoints, env.hav)
      && r.ui.isCalculating == c.ui.isCalculating && !r.ui.saveCompleted
      && r.ui.estimatedTimeMinutes == EstimateTravelMinutes(DistanceMiles(c.ui.waypoints, env.hav), routeType)
    ensures |c.ui.waypoints| >= 2 && !c.ui.manualMode ==>
      r.ui == CalculateWithOrs(c.ui.(routeType := Some(routeType)), c.ui.waypoints, env, remote)
    ensures WellFormed(c) ==> WellFormed(r)
  {
    c.(ui := Refresh(c.ui.(routeType := Some(routeType)), env, remote))
  }

  /** `toggleLayer`: switches the map layer and nothing else. */
  function ToggleLayer(c: Composer): (r: Composer)
    ensures r.ui.layer == c.ui.layer.Next()
    ensures r.ui.(layer := c.ui.layer) == c.ui && r.undo == c.undo && r.redo == c.redo
  {
    c.(ui := c.ui.(layer := c.ui.layer.Next()))
  }

  lemma ToggleLayerInvolution(c: Composer)
    ensures ToggleLayer(ToggleLayer(c)) == c
  {
    NextInvolution(c.ui.layer);
  }

  /** `startNewRoute`: empties both stacks and returns to the initial state,
      keeping only the layer; the type dialog reopens with no type chosen. */
  function StartNewRoute(c: Composer): (r: Composer)
    ensures r.undo == [] && r.redo == []
    ensures r.ui.layer == c.ui.layer
    ensures r.ui.routeType.None? && r.ui.showRouteTypeDialog
    ensures r.ui.waypoints == [] && r.ui.routeGeometry == []
    ensures r.ui.(layer := Standard) == DefaultUi
    ensures WellFormed(r)
  {
    Composer(DefaultUi.(layer := c.ui.layer, showRouteTypeDialog := true, canUndo := false, canRedo := false), [], [])
  }

  /** `toggleManualMode`: flips the flag, then with two or more pins
      recomputes the whole route in the new mode. */
  function ToggleManualMode(c: Composer, env: Env, remote: Outcome): (r: Composer)
    ensures r.ui.manualMode == !c.ui.manualMode
    ensures r.ui.waypoints == c.ui.waypoints && r.undo == c.undo && r.redo == c.redo
    ensures |c.ui.waypoints| < 2 ==> r.ui == c.ui.(manualMode := !c.ui.manualMode)
    ensures SameControls(c.ui.(manualMode := !c.ui.manualMode), r.ui)
    ensures |c.ui.waypoints| >= 2 && r.ui.manualMode ==>
      StraightLineOver(r.ui, c.ui.waypoints, env.hav)
      && r.ui.isCalculating == c.ui.isCalculating && !r.ui.saveCompleted
    ensures |c.ui.waypoints| >= 2 && !r.ui.manualMode ==>
      r.ui == CalculateWithOrs(c.ui.(manualMode := false), c.ui.waypoints, env, remote)
    ensures WellFormed(c) ==> WellFormed(r)
  {
    c.(ui := Refresh(c.ui.(manualMode := !c.ui.manualMode), env, remote))
  }

  /** Toggling manual mode twice restores the flag; with fewer than two pins it
      restores the whole composer. */
  lemma ToggleManualTwice(c: Composer, env: Env, r1: Outcome, r2: Outcome)
    ensures ToggleManualMode(ToggleManualMode(c, env, r1), env, r2).ui.manualMode == c.ui.manualMode
    ensures |c.ui.waypoints| < 2 ==> ToggleManualMode(ToggleManualMode(c, env, r1), env, r2) == c
  {
  }

  /** Switching manual mode off re-requests the whole pin list, but a failed
      request goes through the same incremental fallback as a new pin: the
      last pin is appended to the straight-line geometry a second time and the
      last segment is counted twice. */
  lemma ManualOffFailingRepeatsLastSegment(c: Composer, env: Env, remote: Outcome)
    requires c.ui.manualMode && |c.ui.waypoints| >= 2
    requires StraightLineOver(c.ui, c.ui.waypoints, env.hav)
    requires !IsBlank(env.apiKey) && !Usable(remote)
    ensures
      var pins := c.ui.waypoints;
      var r := ToggleManualMode(c, env, remote).ui;
      && r.routeGeometry == pins + [pins[|pins| - 1]]
      && r.distanceMiles == DistanceMiles(pins, env.hav) + env.hav(pins[|pins| - 2], pins[|pins| - 1]) / MetersPerMile
  {
    var pins := c.ui.waypoints;
    var r := ToggleManualMode(c, env, remote).ui;
    assert r.routeGeometry[..|pins|] == pins;
  }

  /** `updateRouteName`. */
  function UpdateRouteName(c: Composer, name: string): (r: Composer)
    ensures r.ui.routeName == name
    ensures r.ui.(routeName := c.ui.routeName) == c.ui && r.undo == c.undo && r.redo == c.redo
  {
    c.(ui := c.ui.(routeName := name))
  }

  /** `addPin`: with pins already placed, saves a snapshot for undo and drops
      the redo history; appends the point; then recomputes straight lines
      (manual mode, or this is the first pin) or asks the routing service. */
  function AddPin(c: Composer, p: Waypoint, env: Env, remote: Outcome): (r: Composer)
    ensures r.ui.waypoints == c.ui.waypoints + [p]
    ensures |c.ui.waypoints| > 0 ==> r.undo == c.undo + [SnapshotOf(c.ui)] && r.redo == []
    ensures |c.ui.waypoints| == 0 ==> r.undo == c.undo && r.redo == c.redo
    ensures r.ui.canUndo == (|r.undo| > 0) && !r.ui.canRedo
    ensures r.ui.manualMode == c.ui.manualMode && r.ui.routeType == c.ui.routeType
    ensures r.ui.layer == c.ui.layer && r.ui.routeName == c.ui.routeName
    ensures c.ui.manualMode || |c.ui.waypoints| == 0 ==>
      && StraightLineOver(r.ui, r.ui.waypoints, env.hav)
      && r.ui.isCalculating == c.ui.isCalculating && !r.ui.saveCompleted
      && r.ui.showRouteTypeDialog == c.ui.showRouteTypeDialog
    ensures !c.ui.manualMode && |c.ui.waypoints| > 0 ==>
      r.ui == CalculateWithOrs(c.ui.(waypoints := c.ui.waypoints + [p], canUndo := true, canRedo := false),
                               c.ui.waypoints + [p], env, remote)
    ensures WellFormed(c) ==> WellFormed(r)
  {
    var pushed := |c.ui.waypoints| > 0;
    var undo := if pushed then c.undo + [SnapshotOf(c.ui)] else c.undo;
    var redo := if pushed then [] else c.redo;
    var updated := c.ui.waypoints + [p];
    var ui := c.ui.(waypoints := updated, canUndo := |undo| > 0, canRedo := false);
    var ui' := if ui.manualMode || |updated| < 2 then RecalculateManual(ui, updated, env.hav)
               else CalculateWithOrs(ui, updated, env, remote);
    Composer(ui', undo, redo)
  }

  /** `undo`: a no-op on an empty stack; otherwise the current snapshot goes
      onto the redo stack and the top undo snapshot comes back. Mode, type,
      layer, name and the dialog flag are untouched. */
  function Undo(c: Composer): (r: Composer)
    ensures |c.undo| == 0 ==> r == c
    ensures |c.undo| > 0 ==>
      && r.undo == c.undo[..|c.undo| - 1]
      && r.redo == c.redo + [SnapshotOf(c.ui)]
      && SnapshotOf(r.ui) == c.undo[|c.undo| - 1]
      && r.ui.canUndo == (|r.undo| > 0) && r.ui.canRedo
      && !r.ui.saveCompleted
      && r.ui.manualMode == c.ui.manualMode && r.ui.routeType == c.ui.routeType
      && r.ui.layer == c.ui.layer && r.ui.routeName == c.ui.routeName
      && r.ui.isCalculating == c.ui.isCalculating
      && r.ui.showRouteTypeDialog == c.ui.showRouteTypeDialog
    ensures WellFormed(c) ==> WellFormed(r)
  {
    if |c.undo| == 0 then c
    else
      var redo := c.redo + [SnapshotOf(c.ui)];
      var undo := c.undo[..|c.undo| - 1];
      var ui := Restore(c.ui, c.undo[|c.undo| - 1]);
      Composer(ui.(canUndo := |undo| > 0, canRedo := |redo| > 0, saveCompleted := false), undo, redo)
  }

  /** `redo`: the mirror image of `undo`. */
  function Redo(c: Composer): (r: Composer)
    ensures |c.redo| == 0 ==> r == c
    ensures |c.redo| > 0 ==>
      && r.redo == c.redo[..|c.redo| - 1]
      && r.undo == c.undo + [SnapshotOf(c.ui)]
      && SnapshotOf(r.ui) == c.redo[|c.redo| - 1]
      && r.ui.canRedo == (|r.redo| > 0) && r.ui.canUndo
      && !r.ui.saveCompleted
      && r.ui.manualMode == c.ui.manualMode && r.ui.routeType == c.ui.routeType
      && r.ui.layer == c.ui.layer && r.ui.routeName == c.ui.routeName
      && r.ui.isCalculating == c.ui.isCalculating
      && r.ui.showRouteTypeDialog == c.ui.showRouteTypeDialog
    ensures WellFormed(c) ==> WellFormed(r)
  {
    if |c.redo| == 0 then c
    else
      var undo := c.undo + [SnapshotOf(c.ui)];
      var redo := c.redo[..|c.redo| - 1];
      var ui := Restore(c.ui, c.redo[|c.redo| - 1]);
      Composer(ui.(canUndo := |undo| > 0, canRedo := |redo| > 0, saveCompleted := false), undo, redo)
  }

  /** Undo then redo restores both stacks and the five snapshot fields; on a
      well-formed composer it restores everything but `saveCompleted`. */
  lemma UndoThenRedo(c: Composer)
    requires |c.undo| > 0
    ensures Redo(Undo(c)).undo == c.undo && Redo(Undo(c)).redo == c.redo
    ensures SnapshotOf(Redo(Undo(c)).ui) == SnapshotOf(c.ui)
    ensures WellFormed(c) ==> Redo(Undo(c)) == c.(ui := c.ui.(saveCompleted := false))
  {
    var u := Undo(c);
    var top := c.undo[|c.undo| - 1];
    assert u.redo == c.redo + [SnapshotOf(c.ui)];
    var r := Redo(u);
    assert r.redo == c.redo by {
      assert (c.redo + [SnapshotOf(c.ui)])[..|c.redo|] == c.redo;
    }
    assert r.undo == c.undo by {
      assert SnapshotOf(u.ui) == top;
      assert c.undo[..|c.undo| - 1] + [top] == c.undo;
    }
    assert SnapshotOf(r.ui) == SnapshotOf(c.ui);
  }

  /** Redo then undo is the same round trip from the other side. */
  lemma RedoThenUndo(c: Composer)
    requires |c.redo| > 0
    ensures Undo(Redo(c)).undo == c.undo && Undo(Redo(c)).redo == c.redo
    ensures SnapshotOf(Undo(Redo(c)).ui) == SnapshotOf(c.ui)
    ensures WellFormed(c) ==> Undo(Redo(c)) == c.(ui := c.ui.(saveCompleted := false))
  {
    var r := Redo(c);
    var top := c.redo[|c.redo| - 1];
    assert r.undo == c.undo + [SnapshotOf(c.ui)];
    var u := Undo(r);
    assert u.undo == c.undo by {
      assert (c.undo + [SnapshotOf(c.ui)])[..|c.undo|] == c.undo;
    }
    assert u.redo == c.redo by {
      assert SnapshotOf(r.ui) == top;
      assert c.redo[..|c.redo| - 1] + [top] == c.redo;
    }
    assert SnapshotOf(u.ui) == SnapshotOf(c.ui);
  }

  /** Undoing a pin brings back the pins, geometry and figures from before it
      and the undo stack it had. */
  lemma UndoAfterAddPin(c: Composer, p: Waypoint, env: Env, remote: Outcome)
    requires |c.ui.waypoints| > 0
    ensures Undo(AddPin(c, p, env, remote)).ui.waypoints == c.ui.waypoints
    ensures SnapshotOf(Undo(AddPin(c, p, env, remote)).ui) == SnapshotOf(c.ui)
    ensures Undo(AddPin(c, p, env, remote)).undo == c.undo
  {
    assert (c.undo + [SnapshotOf(c.ui)])[..|c.undo|] == c.undo;
  }

  /** Three pins and one undo: undo becomes available with the second pin, and
      after the undo the first two pins remain. */
  lemma ThreePinsOneUndo(p1: Waypoint, p2: Waypoint, p3: Waypoint, env: Env, o1: Outcome, o2: Outcome, o3: Outcome)
    ensures
      var c1 := AddPin(SetRouteType(Initial, "walk"), p1, env, o1);
      var c2 := AddPin(c1, p2, env, o2);
      var c3 := AddPin(c2, p3, env, o3);
      var c4 := Undo(c3);
      && !c1.ui.canUndo && c2.ui.canUndo
      && c4.ui.waypoints == [p1, p2] && c4.ui.canUndo && c4.ui.canRedo
  {
    var c1 := AddPin(SetRouteType(Initial, "walk"), p1, env, o1);
    var c2 := AddPin(c1, p2, env, o2);
    UndoAfterAddPin(c2, p3, env, o3);
  }

  /** Adding a pin while the routing service fails keeps the route a
      straight-line reading of its pins. */
  lemma AddPinFailingStaysStraight(c: Composer, p: Waypoint, env: Env, remote: Outcome)
    requires StraightLineOver(c.ui, c.ui.waypoints, env.hav)
    requires !Usable(remote)
    ensures StraightLineOver(AddPin(c, p, env, remote).ui, c.ui.waypoints + [p], env.hav)
  {
    var updated := c.ui.waypoints + [p];
    if !c.ui.manualMode && |updated| >= 2 && !IsBlank(env.apiKey) {
      var busy := c.ui.(waypoints := updated, canUndo := true, canRedo := false, isCalculating := true);
      var r := Fallback(busy, updated, c.ui.routeGeometry, c.ui.distanceMiles, c.ui.elevationFeet, env.hav);
      assert AddPin(c, p, env, remote).ui == r;
      assert updated[..|updated| - 1] == c.ui.waypoints;
      assert StraightLineOver(busy, updated[..|updated| - 1], env.hav);
      FallbackMatchesManual(busy, updated, env.hav);
      assert r == RecalculateManual(busy, updated, env.hav).(isCalculating := false);
    }
  }

  /** `addPin` over a list of pins, each with its own service outcome. */
  function AddPins(c: Composer, pins: seq<Waypoint>, env: Env, remotes: seq<Outcome>): (r: Composer)
    requires |remotes| == |pins|
    ensures r.ui.waypoints == c.ui.waypoints + pins
    ensures r.ui.manualMode == c.ui.manualMode && r.ui.routeType == c.ui.routeType
    decreases |pins|
  {
    if |pins| == 0 then c
    else
      var next := AddPin(c, pins[0], env, remotes[0]);
      assert c.ui.waypoints + pins == next.ui.waypoints + pins[1..];
      AddPins(next, pins[1..], env, remotes[1..])
  }

  /** With the routing service failing on every call, pins placed one by one
      keep the route a straight-line reading of all its pins. */
  lemma {:induction false} FailingServiceStaysStraight(c: Composer, pins: seq<Waypoint>, env: Env, remotes: seq<Outcome>)
    requires |remotes| == |pins|
    requires forall i | 0 <= i < |remotes| :: !Usable(remotes[i])
    requires StraightLineOver(c.ui, c.ui.waypoints, env.hav)
    ensures StraightLineOver(AddPins(c, pins, env, remotes).ui, c.ui.waypoints + pins, env.hav)
    decreases |pins|
  {
    if |pins| > 0 {
      var next := AddPin(c, pins[0], env, remotes[0]);
      AddPinFailingStaysStraight(c, pins[0], env, remotes[0]);
      assert c.ui.waypoints + pins == (c.ui.waypoints + [pins[0]]) + pins[1..];
      FailingServiceStaysStraight(next, pins[1..], env, remotes[1..]);
    }
  }

  /** With the routing service failing on every call, placing pins gives the
      same pins, geometry and figures as manual mode does. */
  lemma {:induction false} FailingServiceMatchesManualMode(c: Composer, pins: seq<Waypoint>, env: Env, remotes: seq<Outcome>)
    requires |remotes| == |pins|
    requires forall i | 0 <= i < |remotes| :: !Usable(remotes[i])
    requires StraightLineOver(c.ui, c.ui.waypoints, env.hav)
    ensures
      var manual := c.(ui := c.ui.(manualMode := true));
      SnapshotOf(AddPins(c, pins, env, remotes).ui) == SnapshotOf(AddPins(manual, pins, env, remotes).ui)
  {
    var manual := c.(ui := c.ui.(manualMode := true));
    FailingServiceStaysStraight(c, pins, env, remotes);
    FailingServiceStaysStraight(manual, pins, env, remotes);
  }

  /** Difficulty grade from `distance + elevation / 100`: above 8 is "Hard",
      above 4 is "Moderate", anything else "Easy". */
  function Grade(distanceMiles: real, elevationFeet: real): (d: string)
    ensures d == "Hard" <==> distanceMiles + elevationFeet / 100.0 > 8.0
    ensures d == "Moderate" <==> 4.0 < distanceMiles + elevationFeet / 100.0 <= 8.0
    ensures d == "Easy" <==> distanceMiles + elevationFeet / 100.0 <= 4.0
  {
    var score := distanceMiles + elevationFeet / 100.0;
    if score > 8.0 then "Hard" else if score > 4.0 then "Moderate" else "Easy"
  }

  /** Numeric rank of a grade: Easy 0, Moderate 1, Hard 2. */
  function GradeRank(d: string): nat {
    if d == "Hard" then 2 else if d == "Moderate" then 1 else 0
  }

  /** Scores of exactly 8 and exactly 4 fall in the lower grade, whether the
      score comes from distance or from climb. */
  lemma GradeBoundaries()
    ensures Grade(8.0, 0.0) == "Moderate" && Grade(0.0, 800.0) == "Moderate"
    ensures Grade(4.0, 0.0) == "Easy" && Grade(0.0, 400.0) == "Easy"
  {
  }

  /** A route with a higher score never grades easier. */
  lemma GradeMonotone(d1: real, e1: real, d2: real, e2: real)
    requires d1 + e1 / 100.0 <= d2 + e2 / 100.0
    ensures GradeRank(Grade(d1, e1)) <= GradeRank(Grade(d2, e2))
  {
  }

  /** `saveRoute`. A blank name or no pins: nothing happens. Otherwise the
      route is handed to the store with id 0 and the graded difficulty, and
      the screen resets keeping only the type, with `saveCompleted` set. The
      undo and redo stacks are kept; the layer is not. */
  function Save(c: Composer): (res: (Composer, Option<RouteEntity>))
    ensures IsBlank(c.ui.routeName) || |c.ui.waypoints| == 0 ==> res == (c, None)
    ensures !IsBlank(c.ui.routeName) && |c.ui.waypoints| > 0 ==>
      var (r, stored) := res;
      && stored.Some?
      && stored.value.id == 0
      && stored.value.name == c.ui.routeName
      && stored.value.routeType == TypeOrWalk(c.ui.routeType)
      && stored.value.difficulty == Grade(c.ui.distanceMiles, c.ui.elevationFeet)
      && stored.value.distanceMiles == c.ui.distanceMiles
      && stored.value.elevationFeet == c.ui.elevationFeet
      && stored.value.estimatedTimeMinutes == c.ui.estimatedTimeMinutes
      && stored.value.waypoints == c.ui.waypoints
      && stored.value.routeGeometry == c.ui.routeGeometry
      && r.undo == c.undo && r.redo == c.redo
      && r.ui.routeType == c.ui.routeType && r.ui.saveCompleted
      && r.ui.waypoints == [] && r.ui.routeName == "" && r.ui.layer == Standard
      && !r.ui.canUndo && !r.ui.canRedo
      && r.ui == DefaultUi.(routeType := c.ui.routeType, showRouteTypeDialog := false, saveCompleted := true)
  {
    var ui := c.ui;
    if IsBlank(ui.routeName) || |ui.waypoints| == 0 then (c, None)
    else
      var entity := RouteEntity(
        0, ui.routeName, ui.distanceMiles, ui.elevationFeet,
        Grade(ui.distanceMiles, ui.elevationFeet), TypeOrWalk(ui.routeType),
        ui.estimatedTimeMinutes, ui.waypoints, ui.routeGeometry);
      var cleared := DefaultUi.(routeType := ui.routeType, showRouteTypeDialog := false, saveCompleted := true);
      (Composer(cleared, c.undo, c.redo), Some(entity))
  }

  /** A save clears the name, so saving again at once stores nothing and
      changes nothing. */
  lemma SaveTwiceStoresOnce(c: Composer)
    ensures Save(Save(c).0) == (Save(c).0, None)
  {
  }

  /** The history a save keeps comes back with the next pin: the first pin of
      the new route pushes no snapshot (the screen has no pins) but sets
      `canUndo` from the old stack, and undo then restores the saved draft's
      last snapshot. */
  lemma PinAfterSaveRevivesUndo(c: Composer, p: Waypoint, env: Env, remote: Outcome)
    requires Save(c).1.Some? && |c.undo| > 0
    ensures
      var next := AddPin(Save(c).0, p, env, remote);
      && next.ui.canUndo
      && next.undo == c.undo
      && Undo(next).ui.waypoints == c.undo[|c.undo| - 1].waypoints
  {
  }

  /** Saving keeps the history while clearing the undo button: a two-pin draft
      saved under a name leaves an undo stack the screen no longer offers.
      `undo` would still bring the first pin back, and so does the first pin
      of the next route, which re-enables the button. */
  lemma SaveKeepsHiddenHistory(p1: Waypoint, p2: Waypoint, p3: Waypoint, env: Env, o1: Outcome, o2: Outcome, o3: Outcome)
    ensures
      var c := AddPin(AddPin(UpdateRouteName(SetRouteType(Initial, "walk"), "Loop"), p1, env, o1), p2, env, o2);
      var saved := Save(c).0;
      && WellFormed(c)
      && !WellFormed(saved)
      && |saved.undo| == 1 && !saved.ui.canUndo
      && Undo(saved).ui.waypoints == [p1]
      && AddPin(saved, p3, env, o3).ui.canUndo
      && Undo(AddPin(saved, p3, env, o3)).ui.waypoints == [p1]
  {
    InitialWellFormed();
    assert !IsBlank("Loop") by { assert !IsWhitespace("Loop"[0]); }
  }

  /** With the routing service configured, a service answer whose path is
      empty followed by a failed call on the next pin leaves `isCalculating`
      set: the fallback finds no earlier geometry and recomputes manually,
      which does not clear the flag. */
  lemma SpinnerStuckScenario(p1: Waypoint, p2: Waypoint, p3: Waypoint, env: Env, o1: Outcome, e: Exception)
    requires !IsBlank(env.apiKey)
    ensures
      var c1 := AddPin(SetRouteType(Initial, "walk"), p1, env, o1);
      var c2 := AddPin(c1, p2, env, Answer([], 0.0));
      var c3 := AddPin(c2, p3, env, Raised(e));
      && !c2.ui.isCalculating && c2.ui.routeGeometry == []
      && c3.ui.isCalculating
  {
    var c1 := AddPin(SetRouteType(Initial, "walk"), p1, env, o1);
    var c2 := AddPin(c1, p2, env, Answer([], 0.0));
    assert Usable(Answer([], 0.0));
    SpinnerLeftOn(c2.ui.(waypoints := c2.ui.waypoints + [p3], canUndo := true, canRedo := false),
                  c2.ui.waypoints + [p3], env, Raised(e));
  }
}

=== FILE: geodesy.dfy ===
/** Path length, climb and travel-time estimate over a list of waypoints.
    The great-circle distance between two points (the haversine formula) is
    trigonometric and is not modelled: every distance here is stated relative
    to an arbitrary `Metric` that the caller supplies. */
module Geodesy {
  import opened Model

  /** Distance in metres between two points; the haversine formula in the app. */
  type Metric = (Waypoint, Waypoint) -> real

  const MetersPerMile: real := 1609.34
  const WalkSpeedMph: real := 3.0
  const DriveSpeedMph: real := 30.0
  const Int32Min: int := -0x8000_0000
  const Int32Max: int := 0x7FFF_FFFF

  /** Sum of `hav` over every pair of neighbouring points, in metres. */
  function SegmentMeters(points: seq<Waypoint>, hav: Metric): real
    decreases |points|
  {
    if |points| < 2 then 0.0 else hav(points[0], points[1]) + SegmentMeters(points[1..], hav)
  }

  /** `computeDistanceMiles`: the path length in miles; 0 for fewer than two points. */
  function DistanceMiles(points: seq<Waypoint>, hav: Metric): (miles: real)
    ensures |points| < 2 ==> miles == 0.0
  {
    if |points| < 2 then 0.0 else SegmentMeters(points, hav) / MetersPerMile
  }

  /** The climb from `a` to `b`: the height difference when positive, else 0. */
  function Rise(a: Waypoint, b: Waypoint): (r: real)
    ensures r >= 0.0
    ensures r >= b.elevationFeet - a.elevationFeet
    ensures r == 0.0 || r == b.elevationFeet - a.elevationFeet
  {
    var diff := b.elevationFeet - a.elevationFeet;
    if diff > 0.0 then diff else 0.0
  }

  /** `computeElevationGain`: cumulative climb along the path; descents count 0. */
  function ElevationGain(points: seq<Waypoint>): (gain: real)
    ensures gain >= 0.0
    ensures |points| < 2 ==> gain == 0.0
    decreases |points|
  {
    if |points| < 2 then 0.0 else Rise(points[0], points[1]) + ElevationGain(points[1..])
  }

  /** `computeDistanceMiles` as the app runs it: one pass over the windows of two. */
  method ComputeDistanceMiles(points: seq<Waypoint>, hav: Metric) returns (miles: real)
    ensures miles == DistanceMiles(points, hav)
  {
    if |points| < 2 {
      return 0.0;
    }
    var totalMeters := 0.0;
    var i := 0;
    while i < |points| - 1
      invariant 0 <= i <= |points| - 1
      invariant totalMeters + SegmentMeters(points[i..], hav) == SegmentMeters(points, hav)
    {
      assert points[i..][1..] == points[i + 1..];
      totalMeters := totalMeters + hav(points[i], points[i + 1]);
      i := i + 1;
    }
    miles := totalMeters / MetersPerMile;
  }

  /** `computeElevationGain` as the app runs it: one pass over the windows of two. */
  method ComputeElevationGain(points: seq<Waypoint>) returns (gain: real)
    ensures gain == ElevationGain(points)
  {
    if |points| < 2 {
      return 0.0;
    }
    gain := 0.0;
    var i := 0;
    while i < |points| - 1
      invariant 0 <= i <= |points| - 1
      invariant gain + ElevationGain(points[i..]) == ElevationGain(points)
    {
      assert points[i..][1..] == points[i + 1..];
      var diff := points[i + 1].elevationFeet - points[i].elevationFeet;
      if diff > 0.0 {
        gain := gain + diff;
      }
      i := i + 1;
    }
  }

  /** Appending a point adds exactly one segment to the metre total. */
  lemma {:induction false} SegmentMetersAppend(points: seq<Waypoint>, p: Waypoint, hav: Metric)
    requires |points| > 0
    ensures SegmentMeters(points + [p], hav) == SegmentMeters(points, hav) + hav(points[|points| - 1], p)
    decreases |points|
  {
    if |points| == 1 {
      assert (points + [p])[1..] == [p];
    } else {
      assert (points + [p])[1..] == points[1..] + [p];
      SegmentMetersAppend(points[1..], p, hav);
    }
  }

  /** Appending `p` to a non-empty path adds `hav(last, p)` metres, in miles. */
  lemma DistanceAppend(points: seq<Waypoint>, p: Waypoint, hav: Metric)
    requires |points| > 0
    ensures DistanceMiles(points + [p], hav)
         == DistanceMiles(points, hav) + hav(points[|points| - 1], p) / MetersPerMile
  {
    SegmentMetersAppend(points, p, hav);
  }

  /** Appending `p` to a non-empty path adds exactly the climb from the last point. */
  lemma {:induction false} GainAppend(points: seq<Waypoint>, p: Waypoint)
    requires |points| > 0
    ensures ElevationGain(points + [p]) == ElevationGain(points) + Rise(points[|points| - 1], p)
    decreases |points|
  {
    if |points| == 1 {
      assert (points + [p])[1..] == [p];
    } else {
      assert (points + [p])[1..] == points[1..] + [p];
      GainAppend(points[1..], p);
    }
  }

  /** The gain never decreases as points are appended, and a descending (or
      level) final step leaves it exactly unchanged. */
  lemma {:induction false} GainMonotone(points: seq<Waypoint>, p: Waypoint)
    ensures ElevationGain(points + [p]) >= ElevationGain(points)
    ensures |points| > 0 && p.elevationFeet <= points[|points| - 1].elevationFeet
            ==> ElevationGain(points + [p]) == ElevationGain(points)
  {
    if |points| > 0 {
      GainAppend(points, p);
    }
  }

  /** A point repeated back to back adds nothing to the length when the metric
      puts a point at distance 0 from itself. */
  lemma {:induction false} DuplicateAddsNoMeters(pre: seq<Waypoint>, x: Waypoint, post: seq<Waypoint>, hav: Metric)
    requires hav(x, x) == 0.0
    ensures SegmentMeters(pre + [x, x] + post, hav) == SegmentMeters(pre + [x] + post, hav)
    decreases |pre|
  {
    if |pre| == 0 {
      assert pre + [x, x] + post == [x] + ([x] + post);
      assert (pre + [x, x] + post)[1..] == pre + [x] + post;
    } else {
      assert (pre + [x, x] + post)[1..] == pre[1..] + [x, x] + post;
      assert (pre + [x] + post)[1..] == pre[1..] + [x] + post;
      DuplicateAddsNoMeters(pre[1..], x, post, hav);
    }
  }

  /** A point repeated back to back never changes the climb. */
  lemma {:induction false} DuplicateAddsNoGain(pre: seq<Waypoint>, x: Waypoint, post: seq<Waypoint>)
    ensures ElevationGain(pre + [x, x] + post) == ElevationGain(pre + [x] + post)
    decreases |pre|
  {
    if |pre| == 0 {
      assert (pre + [x, x] + post)[1..] == pre + [x] + post;
    } else {
      assert (pre + [x, x] + post)[1..] == pre[1..] + [x, x] + post;
      assert (pre + [x] + post)[1..] == pre[1..] + [x] + post;
      DuplicateAddsNoGain(pre[1..], x, post);
    }
  }

  /** Kotlin's `Double.toInt()`: rounds toward zero and saturates at the
      32-bit bounds. */
  function TruncateToInt(x: real): (n: int)
    ensures Int32Min <= n <= Int32Max
    ensures 0.0 <= x ==> 0 <= n && n as real <= x
    ensures x <= 0.0 ==> n <= 0 && x <= n as real
    ensures 0.0 <= x < Int32Max as real ==> x < n as real + 1.0
    ensures Int32Min as real < x <= 0.0 ==> n as real - 1.0 < x
    ensures x >= Int32Max as real ==> n == Int32Max
    ensures x <= Int32Min as real ==> n == Int32Min
  {
    if x >= 0.0 then
      (if x >= Int32Max as real then Int32Max else x.Floor)
    else
      (if x <= Int32Min as real then Int32Min else -((-x).Floor))
  }

  /** Truncation toward zero with saturation never reverses an order. */
  lemma TruncateMonotone(x: real, y: real)
    requires x <= y
    ensures TruncateToInt(x) <= TruncateToInt(y)
  {
  }

  /** Miles per hour: 30 for "drive", 3 for every other type string. */
  function SpeedMph(routeType: string): (mph: real)
    ensures mph > 0.0
    ensures routeType == "drive" <==> mph == DriveSpeedMph
    ensures routeType != "drive" ==> mph == WalkSpeedMph
  {
    if routeType == "drive" then DriveSpeedMph else WalkSpeedMph
  }

  /** `estimateTravelMinutes`: whole minutes at the type's speed, truncated;
      exactly 0 for a zero distance. */
  function EstimateTravelMinutes(distanceMiles: real, routeType: string): (minutes: int)
    ensures distanceMiles == 0.0 ==> minutes == 0
    ensures Int32Min <= minutes <= Int32Max
    ensures 0.0 <= distanceMiles ==> 0 <= minutes
    ensures 0.0 <= distanceMiles ==> minutes as real <= distanceMiles / SpeedMph(routeType) * 60.0
    ensures 0.0 <= distanceMiles / SpeedMph(routeType) * 60.0 < Int32Max as real
            ==> distanceMiles / SpeedMph(routeType) * 60.0 < minutes as real + 1.0
  {
    if distanceMiles == 0.0 then 0 else TruncateToInt(distanceMiles / SpeedMph(routeType) * 60.0)
  }

  /** A longer route never takes fewer minutes at the same speed. */
  lemma MinutesMonotone(d1: real, d2: real, routeType: string)
    requires d1 <= d2
    ensures EstimateTravelMinutes(d1, routeType) <= EstimateTravelMinutes(d2, routeType)
  {
    TruncateMonotone(d1 / SpeedMph(routeType) * 60.0, d2 / SpeedMph(routeType) * 60.0);
  }

  /** Driving a route never takes longer than walking it. */
  lemma DriveNoSlowerThanWalk(d: real)
    requires d >= 0.0
    ensures EstimateTravelMinutes(d, "drive") <= EstimateTravelMinutes(d, "walk")
  {
    TruncateMonotone(d / 30.0 * 60.0, d / 3.0 * 60.0);
  }

  /** One great-circle degree of latitude (about 69.17 miles) takes 1383 minutes on foot. */
  lemma OneDegreeOnFoot()
    ensures EstimateTravelMinutes(69.17, "walk") == 1383
    ensures EstimateTravelMinutes(69.17, "drive") == 138
  {
  }
}

=== FILE: map_filter.dfy ===
/** The saved-routes map (`MapViewModel`): the search and filter selections
    and the list of routes they leave visible. */
module MapFilter {
  import opened Model
  import opened Text
  import opened Persistence

  /** The four elevation buckets of the filter, by total climb in feet. */
  datatype ElevationRange = Flat | Low | Medium | High {

    function Label(): string {
      match this
      case Flat => "Flat"
      case Low => "Low"
      case Medium => "Medium"
      case High => "High"
    }

    function Rank(): nat {
      match this
      case Flat => 0
      case Low => 1
      case Medium => 2
      case High => 3
    }
  }

  /** Below 100 ft Flat, below 500 Low, below 1500 Medium, otherwise High. */
  function Bucket(elevationFeet: real): (b: ElevationRange)
    ensures b == Flat <==> elevationFeet < 100.0
    ensures b == Low <==> 100.0 <= elevationFeet < 500.0
    ensures b == Medium <==> 500.0 <= elevationFeet < 1500.0
    ensures b == High <==> 1500.0 <= elevationFeet
  {
    if elevationFeet < 100.0 then Flat
    else if elevationFeet < 500.0 then Low
    else if elevationFeet < 1500.0 then Medium
    else High
  }

  /** A higher climb never lands in a lower bucket. */
  lemma BucketMonotone(e1: real, e2: real)
    requires e1 <= e2
    ensures Bucket(e1).Rank() <= Bucket(e2).Rank()
  {
  }

  /** The search text and the three selection sets. */
  datatype Criteria = Criteria(
    search: string,
    types: set<string>,
    difficulties: set<string>,
    elevationRanges: set<string>)

  /** One selection dimension: an empty selection lets everything through. */
  function Admits(selection: set<string>, key: string): (b: bool)
    ensures selection == {} ==> b
    ensures selection != {} ==> (b <==> key in selection)
  {
    selection == {} || key in selection
  }

  /** The predicate of `filterRoutes`: the name contains the search text
      (ignoring case) unless the search is blank; the lower-cased type, the
      exact difficulty and the elevation bucket are each admitted. */
  predicate Matches(route: Route, c: Criteria) {
    && (IsBlank(c.search) || ContainsIgnoreCase(route.name, c.search))
    && Admits(c.types, Lowercase(route.routeType))
    && Admits(c.difficulties, route.difficulty)
    && Admits(c.elevationRanges, Bucket(route.elevationFeet).Label())
  }

  /** `a` is `b` with some elements left out, order kept. */
  predicate IsSubsequence<T(==)>(a: seq<T>, b: seq<T>)
    decreases |b|
  {
    |a| == 0 || (|b| > 0 && ((a[0] == b[0] && IsSubsequence(a[1..], b[1..])) || IsSubsequence(a, b[1..])))
  }

  /** `filterRoutes`: the routes that match, in their original order. */
  function FilterRoutes(routes: seq<Route>, c: Criteria): (r: seq<Route>)
    ensures IsSubsequence(r, routes)
    ensures forall x | x in r :: Matches(x, c)
    ensures forall x | x in routes && Matches(x, c) :: x in r
    decreases |routes|
  {
    if |routes| == 0 then []
    else if Matches(routes[0], c) then [routes[0]] + FilterRoutes(routes[1..], c)
    else FilterRoutes(routes[1..], c)
  }

  /** With a blank search and no selections, every route is visible. */
  lemma {:induction false} EmptyCriteriaKeepAll(routes: seq<Route>, search: string)
    requires IsBlank(search)
    ensures FilterRoutes(routes, Criteria(search, {}, {}, {})) == routes
    decreases |routes|
  {
    if |routes| > 0 {
      EmptyCriteriaKeepAll(routes[1..], search);
    }
  }

  /** The four conditions are independent: a route matches exactly when it
      passes the search alone, the type selection alone, the difficulty
      selection alone and the elevation selection alone. */
  lemma MatchesEachDimension(route: Route, c: Criteria)
    ensures Matches(route, c) <==>
      && Matches(route, Criteria(c.search, {}, {}, {}))
      && Matches(route, Criteria("", c.types, {}, {}))
      && Matches(route, Criteria("", {}, c.difficulties, {}))
      && Matches(route, Criteria("", {}, {}, c.elevationRanges))
  {
  }

  /** Type matching lower-cases the route's type, so a route matches exactly
      when the same route with its type lower-cased does. */
  lemma TypeMatchingFoldsCase(route: Route, c: Criteria)
    ensures Matches(route, c) <==> Matches(route.(routeType := Lowercase(route.routeType)), c)
  {
    LowercaseIdempotent(route.routeType);
  }

  /** Difficulty matching is exact: a route whose difficulty is selected only
      in another case is hidden, e.g. "Hard" under the selection {"hard"}. */
  lemma DifficultyMatchingIsExact(route: Route, c: Criteria)
    requires Lowercase(route.difficulty) in c.difficulties && route.difficulty !in c.difficulties
    ensures !Matches(route, c)
  {
  }

  /** Filtering a list extended by one route extends the result by that route
      exactly when it matches, so each matching route appears as often as in
      the input. */
  lemma {:induction false} FilterAppend(routes: seq<Route>, x: Route, c: Criteria)
    ensures FilterRoutes(routes + [x], c) == FilterRoutes(routes, c) + (if Matches(x, c) then [x] else [])
    decreases |routes|
  {
    if |routes| == 0 {
      assert FilterRoutes([x], c) == (if Matches(x, c) then [x] else []);
    } else {
      assert (routes + [x])[0] == routes[0];
      assert (routes + [x])[1..] == routes[1..] + [x];
      FilterAppend(routes[1..], x, c);
    }
  }

  /** `selection` constrains no less than `wider`: a non-empty subset of it, or
      anything when `wider` is empty. */
  predicate Narrower(selection: set<string>, wider: set<string>) {
    wider == {} || (selection != {} && selection <= wider)
  }

  /** Narrowing any selection (same search) can only hide routes: the result
      is a subsequence of the wider result. */
  lemma {:induction false} FilterNarrowing(routes: seq<Route>, c: Criteria, wider: Criteria)
    requires c.search == wider.search
    requires Narrower(c.types, wider.types)
    requires Narrower(c.difficulties, wider.difficulties)
    requires Narrower(c.elevationRanges, wider.elevationRanges)
    ensures IsSubsequence(FilterRoutes(routes, c), FilterRoutes(routes, wider))
    decreases |routes|
  {
    if |routes| > 0 {
      var rest, restWider := FilterRoutes(routes[1..], c), FilterRoutes(routes[1..], wider);
      FilterNarrowing(routes[1..], c, wider);
      if Matches(routes[0], c) {
        assert Matches(routes[0], wider);
        assert ([routes[0]] + rest)[1..] == rest;
        assert ([routes[0]] + restWider)[1..] == restWider;
      } else if Matches(routes[0], wider) {
        assert ([routes[0]] + restWider)[1..] == restWider;
        SubsequenceSkipHead(rest, [routes[0]] + restWider);
      }
    }
  }

  /** Skipping the head of `b` keeps a subsequence of its tail a subsequence. */
  lemma SubsequenceSkipHead<T>(a: seq<T>, b: seq<T>)
    requires |b| > 0 && IsSubsequence(a, b[1..])
    ensures IsSubsequence(a, b)
  {
  }

  /** Filtering a filtered list changes nothing. */
  lemma {:induction false} FilterIdempotent(routes: seq<Route>, c: Criteria)
    ensures FilterRoutes(FilterRoutes(routes, c), c) == FilterRoutes(routes, c)
    decreases |routes|
  {
    if |routes| > 0 {
      FilterIdempotent(routes[1..], c);
      if Matches(routes[0], c) {
        assert ([routes[0]] + FilterRoutes(routes[1..], c))[1..] == FilterRoutes(routes[1..], c);
      }
    }
  }

  /** Adding or removing a key: the set operation of every filter chip. */
  function ToggleKey(selection: set<string>, key: string): (r: set<string>)
    ensures key in r <==> key !in selection
    ensures forall k | k != key :: k in r <==> k in selection
  {
    if key in selection then selection - {key} else selection + {key}
  }

  /** Toggling the same key twice gives back the original selection. */
  lemma ToggleKeyTwice(selection: set<string>, key: string)
    ensures ToggleKey(ToggleKey(selection, key), key) == selection
  {
  }

  /** `MapUiState`. */
  datatype MapUiState = MapUiState(
    routes: seq<Route>,
    visibleRoutes: seq<Route>,
    searchQuery: string,
    selectedTypes: set<string>,
    selectedDifficulties: set<string>,
    selectedElevationRanges: set<string>,
    layer: MapLayer,
    filtersExpanded: bool)
  {
    function Selection(): Criteria {
      Criteria(searchQuery, selectedTypes, selectedDifficulties, selectedElevationRanges)
    }
  }

  /** The opening state: no routes, every type, difficulty and range selected. */
  const DefaultMap: MapUiState := MapUiState(
    [], [], "",
    {"walk", "drive"},
    {"Easy", "Moderate", "Hard"},
    {"Flat", "Low", "Medium", "High"},
    Standard, false)

  /** The visible list is exactly what the current criteria let through. */
  predicate Synced(s: MapUiState) {
    s.visibleRoutes == FilterRoutes(s.routes, s.Selection())
  }

  /** The opening state is in sync, and its selections admit every type and
      difficulty the app itself produces and every elevation. */
  lemma DefaultMapSynced(route: Route)
    requires route.routeType in {"walk", "drive"}
    requires route.difficulty in {"Easy", "Moderate", "Hard"}
    ensures Synced(DefaultMap)
    ensures Matches(route, DefaultMap.Selection())
  {
    assert IsBlank("");
    assert Lowercase("walk") == "walk";
    assert Lowercase("drive") == "drive";
  }

  /** A new list from the store: rows become routes and the filter reruns. */
  function OnRoutes(s: MapUiState, entities: seq<RouteEntity>): (r: MapUiState)
    ensures r.routes == ToModels(entities)
    ensures Synced(r)
    ensures r.Selection() == s.Selection() && r.layer == s.layer && r.filtersExpanded == s.filtersExpanded
  {
    var routes := ToModels(entities);
    s.(routes := routes, visibleRoutes := FilterRoutes(routes, s.Selection()))
  }

  /** `updateSearchQuery`. */
  function UpdateSearchQuery(s: MapUiState, query: string): (r: MapUiState)
    ensures r.searchQuery == query && Synced(r)
    ensures r.routes == s.routes && r.selectedTypes == s.selectedTypes
    ensures r.selectedDifficulties == s.selectedDifficulties
    ensures r.selectedElevationRanges == s.selectedElevationRanges
    ensures r.layer == s.layer && r.filtersExpanded == s.filtersExpanded
  {
    var updated := s.(searchQuery := query);
    updated.(visibleRoutes := FilterRoutes(s.routes, updated.Selection()))
  }

  /** `toggleType`. */
  function ToggleType(s: MapUiState, routeType: string): (r: MapUiState)
    ensures r.selectedTypes == ToggleKey(s.selectedTypes, routeType) && Synced(r)
    ensures r.routes == s.routes && r.searchQuery == s.searchQuery
    ensures r.selectedDifficulties == s.selectedDifficulties
    ensures r.selectedElevationRanges == s.selectedElevationRanges
    ensures r.layer == s.layer && r.filtersExpanded == s.filtersExpanded
  {
    var updated := s.(selectedTypes := ToggleKey(s.selectedTypes, routeType));
    updated.(visibleRoutes := FilterRoutes(s.routes, updated.Selection()))
  }

  /** `toggleDifficulty`. */
  function ToggleDifficulty(s: MapUiState, difficulty: string): (r: MapUiState)
    ensures r.selectedDifficulties == ToggleKey(s.selectedDifficulties, difficulty) && Synced(r)
    ensures r.routes == s.routes && r.searchQuery == s.searchQuery
    ensures r.selectedTypes == s.selectedTypes
    ensures r.selectedElevationRanges == s.selectedElevationRanges
    ensures r.layer == s.layer && r.filtersExpanded == s.filtersExpanded
  {
    var updated := s.(selectedDifficulties := ToggleKey(s.selectedDifficulties, difficulty));
    updated.(visibleRoutes := FilterRoutes(s.routes, updated.Selection()))
  }

  /** `toggleElevationRange`. */
  function ToggleElevationRange(s: MapUiState, range: string): (r: MapUiState)
    ensures r.selectedElevationRanges == ToggleKey(s.selectedElevationRanges, range) && Synced(r)
    ensures r.routes == s.routes && r.searchQuery == s.searchQuery
    ensures r.selectedTypes == s.selectedTypes
    ensures r.selectedDifficulties == s.selectedDifficulties
    ensures r.layer == s.layer && r.filtersExpanded == s.filtersExpanded
  {
    var updated := s.(selectedElevationRanges := ToggleKey(s.selectedElevationRanges, range));
    updated.(visibleRoutes := FilterRoutes(s.routes, updated.Selection()))
  }

  /** Toggling the same chip twice restores a synced state exactly. */
  lemma ToggleTwiceRestores(s: MapUiState, key: string)
    requires Synced(s)
    ensures ToggleType(ToggleType(s, key), key) == s
    ensures ToggleDifficulty(ToggleDifficulty(s, key), key) == s
    ensures ToggleElevationRange(ToggleElevationRange(s, key), key) == s
  {
    ToggleKeyTwice(s.selectedTypes, key);
    ToggleKeyTwice(s.selectedDifficulties, key);
    ToggleKeyTwice(s.selectedElevationRanges, key);
  }

  /** `toggleLayer`: switches the layer and nothing else. */
  function ToggleLayer(s: MapUiState): (r: MapUiState)
    ensures r.layer == s.layer.Next()
    ensures r.(layer := s.layer) == s
    ensures Synced(s) ==> Synced(r)
  {
    s.(layer := s.layer.Next())
  }

  lemma ToggleLayerInvolution(s: MapUiState)
    ensures ToggleLayer(ToggleLayer(s)) == s
  {
    NextInvolution(s.layer);
  }

  /** `toggleFiltersExpanded`: flips the panel flag and nothing else. */
  function ToggleFiltersExpanded(s: MapUiState): (r: MapUiState)
    ensures r.filtersExpanded != s.filtersExpanded
    ensures r.(filtersExpanded := s.filtersExpanded) == s
    ensures Synced(s) ==> Synced(r)
  {
    s.(filtersExpanded := !s.filtersExpanded)
  }
}

=== FILE: model.dfy ===
/** The plain data records shared by every screen: waypoints, saved routes
    and the map layer choice. */
module Model {

  /** A geographic anchor point. Elevation is in feet and is 0 when unknown. */
  datatype Waypoint = Waypoint(latitude: real, longitude: real, elevationFeet: real)

  /** A saved route as the list, map and statistics screens see it.
      `routeType` is the source's `type` field ("walk", "drive", ...). */
  datatype Route = Route(
    id: int,
    name: string,
    distanceMiles: real,
    elevationFeet: real,
    difficulty: string,
    routeType: string,
    estimatedTimeMinutes: int,
    waypoints: seq<Waypoint>,
    routeGeometry: seq<Waypoint>)

  /** The two base map styles. */
  datatype MapLayer = Standard | Satellite {

    /** The other layer: what the layer button switches to. */
    function Next(): (r: MapLayer)
      ensures r != this
    {
      match this
      case Standard => Satellite
      case Satellite => Standard
    }
  }

  /** Switching the layer twice gets back the layer one started with. */
  lemma NextInvolution(l: MapLayer)
    ensures l.Next().Next() == l
  {
  }
}

=== FILE: nullable.dfy ===
/** Kotlin's nullable values: `T?` becomes `Option<T>`. */
module Nullable {

  datatype Option<T> = None | Some(value: T) {

    /** Kotlin's elvis operator `this ?: fallback`. */
    function Elvis(fallback: T): T {
      if Some? then value else fallback
    }
  }
}

=== FILE: ors_api.dfy ===
/** The OpenRouteService directions exchange: the request the app builds and
    the shapes of the GeoJSON response it reads, every field optional as in
    the app's response classes. The HTTP client itself is not modelled: the
    outcome of a call is an input. Positions arrive `[longitude, latitude,
    elevation]`, the position order of section 3.1.1 of RFC 7946, with the
    elevation in metres. */
module OrsApi {
  import opened Nullable
  import opened Model
  import opened Geodesy

  const FeetPerMeter: real := 3.28084

  datatype DirectionsRequest = DirectionsRequest(
    coordinates: seq<seq<real>>,
    elevation: bool,
    instructions: bool)

  datatype Summary = Summary(distance: Option<real>, duration: Option<real>)

  datatype Properties = Properties(
    summary: Option<Summary>,
    wayPoints: Option<seq<int>>,
    ascent: Option<real>,
    descent: Option<real>)

  datatype Geometry = Geometry(geometryType: Option<string>, coordinates: Option<seq<seq<real>>>)

  datatype Feature = Feature(
    featureType: Option<string>,
    properties: Option<Properties>,
    geometry: Option<Geometry>,
    bbox: Option<seq<real>>)

  datatype Metadata = Metadata(attribution: Option<string>, service: Option<string>, timestamp: Option<int>)

  datatype OrsError = OrsError(code: Option<int>, message: Option<string>)

  datatype DirectionsResponse = DirectionsResponse(
    responseType: Option<string>,
    features: Option<seq<Feature>>,
    bbox: Option<seq<real>>,
    metadata: Option<Metadata>,
    error: Option<OrsError>)

  /** Whatever the client threw: timeout, network or decoding failure. */
  datatype Exception = Exception(message: string)

  /** The result of one directions call: a decoded body, or a thrown exception. */
  datatype Outcome = Returned(response: DirectionsResponse) | Raised(exception: Exception)

  /** What a usable answer contributes: the detailed path and the service's
      own total distance in miles. */
  datatype RemoteRoute = RemoteRoute(geometry: seq<Waypoint>, distanceMiles: real)

  /** The routing profile: "driving-car" for "drive", "foot-walking" otherwise
      (including when no type is chosen yet). */
  function Profile(routeType: Option<string>): (profile: string)
    ensures profile == "driving-car" <==> routeType == Some("drive")
    ensures profile == "driving-car" || profile == "foot-walking"
  {
    match routeType
    case Some("drive") => "driving-car"
    case _ => "foot-walking"
  }

  /** The request body: one `[longitude, latitude]` pair per waypoint, in
      order, asking for elevation and no turn instructions. */
  function BuildRequest(points: seq<Waypoint>): (req: DirectionsRequest)
    ensures |req.coordinates| == |points|
    ensures forall i | 0 <= i < |points| ::
      |req.coordinates[i]| == 2
      && req.coordinates[i][0] == points[i].longitude
      && req.coordinates[i][1] == points[i].latitude
    ensures req.elevation && !req.instructions
  {
    DirectionsRequest(seq(|points|, i requires 0 <= i < |points| => [points[i].longitude, points[i].latitude]), true, false)
  }

  /** One GeoJSON position as a waypoint: latitude second, longitude first,
      elevation (metres, optional third entry) converted to feet. */
  function ToWaypoint(c: seq<real>): (w: Waypoint)
    requires |c| >= 2
    ensures w.latitude == c[1] && w.longitude == c[0]
    ensures |c| > 2 ==> w.elevationFeet == c[2] * FeetPerMeter
    ensures |c| == 2 ==> w.elevationFeet == 0.0
  {
    Waypoint(c[1], c[0], if |c| > 2 then c[2] * FeetPerMeter else 0.0)
  }

  /** Every position has at least a longitude and a latitude; reading `c[1]`
      of a shorter one throws, and the app's catch-all turns that into the
      fallback. */
  predicate PositionsReadable(coords: seq<seq<real>>) {
    forall i | 0 <= i < |coords| :: |coords[i]| >= 2
  }

  /** The first feature carries everything the app reads. */
  predicate FeatureComplete(f: Feature) {
    && f.geometry.Some?
    && f.properties.Some?
    && f.properties.value.summary.Some?
    && f.geometry.value.coordinates.Some?
    && PositionsReadable(f.geometry.value.coordinates.value)
  }

  /** A response the app accepts: no error object, a non-empty feature list,
      and a complete first feature. */
  predicate Usable(o: Outcome) {
    && o.Returned?
    && o.response.error.None?
    && o.response.features.Some?
    && |o.response.features.value| > 0
    && FeatureComplete(o.response.features.value[0])
  }

  /** The app's reading of a directions outcome (the `try` block of
      `calculateRouteWithORS`): `None` is every path into the fallback. */
  function Interpret(o: Outcome): (r: Option<RemoteRoute>)
    ensures r.Some? <==> Usable(o)
    ensures r.Some? ==>
      var f := o.response.features.value[0];
      var coords := f.geometry.value.coordinates.value;
      && |r.value.geometry| == |coords|
      && (forall i | 0 <= i < |coords| ::
            && r.value.geometry[i].latitude == coords[i][1]
            && r.value.geometry[i].longitude == coords[i][0]
            && r.value.geometry[i].elevationFeet
               == (if |coords[i]| > 2 then coords[i][2] * FeetPerMeter else 0.0))
      && r.value.distanceMiles == f.properties.value.summary.value.distance.Elvis(0.0) / MetersPerMile
  {
    match o
    case Raised(_) => None
    case Returned(resp) =>
      if resp.error.Some? || resp.features.None? then None
      else if |resp.features.value| == 0 then None
      else
        var f := resp.features.value[0];
        if f.geometry.None? || f.properties.None? || f.properties.value.summary.None?
           || f.geometry.value.coordinates.None?
        then None
        else
          var coords := f.geometry.value.coordinates.value;
          if !PositionsReadable(coords) then None
          else
            var path := seq(|coords|, i requires 0 <= i < |coords| => ToWaypoint(coords[i]));
            var meters := f.properties.value.summary.value.distance.Elvis(0.0);
            Some(RemoteRoute(path, meters / MetersPerMile))
  }

  /** Each way a call can fail leads to the fallback: an exception, an error
      object, a missing or empty feature list, or a first feature missing its
      geometry, properties, summary or coordinates. */
  lemma FailureCases(o: Outcome)
    ensures o.Raised? ==> Interpret(o).None?
    ensures o.Returned? && o.response.error.Some? ==> Interpret(o).None?
    ensures o.Returned? && o.response.features.None? ==> Interpret(o).None?
    ensures o.Returned? && o.response.features == Some([]) ==> Interpret(o).None?
    ensures o.Returned? && o.response.features.Some? && |o.response.features.value| > 0 ==>
      var f := o.response.features.value[0];
      (f.geometry.None? || f.properties.None? || (f.properties.Some? && f.properties.value.summary.None?)
       || (f.geometry.Some? && f.geometry.value.coordinates.None?)) ==> Interpret(o).None?
  {
  }

  /** A minimal well-formed answer: one feature with the given positions and
      total distance in metres, nothing else filled in. */
  function Answer(coords: seq<seq<real>>, meters: real): (o: Outcome)
    ensures o.Returned? && o.response.error.None?
  {
    var summary := Summary(Some(meters), None);
    var props := Properties(Some(summary), None, None, None);
    var feature := Feature(None, Some(props), Some(Geometry(None, Some(coords))), None);
    Returned(DirectionsResponse(None, Some([feature]), None, None, None))
  }

  /** If the service hands back the very positions it was sent, each extended
      with an elevation, the app reads back the waypoints' own coordinates:
      longitude/latitude order survives the round trip. Elevations come back in
      feet, and the distance is the service's, not a re-sum of the path. */
  lemma EchoRoundTrip(points: seq<Waypoint>, elevationsMeters: seq<real>, meters: real)
    requires |elevationsMeters| == |points|
    ensures
      var sent := BuildRequest(points).coordinates;
      var echoed := seq(|sent|, i requires 0 <= i < |sent| => sent[i] + [elevationsMeters[i]]);
      var r := Interpret(Answer(echoed, meters));
      && r.Some?
      && |r.value.geometry| == |points|
      && (forall i | 0 <= i < |points| ::
            r.value.geometry[i] == Waypoint(points[i].latitude, points[i].longitude, elevationsMeters[i] * FeetPerMeter))
      && r.value.distanceMiles == meters / MetersPerMile
  {
  }
}

=== FILE: persistence.dfy ===
/** The stored form of a route (`RouteEntity`) and its field-for-field
    mappings to and from the screen model. */
module Persistence {
  import opened Model

  /** The `routes` table row. `id` 0 means "not yet stored": the database
      assigns the real one. */
  datatype RouteEntity = RouteEntity(
    id: int,
    name: string,
    distanceMiles: real,
    elevationFeet: real,
    difficulty: string,
    routeType: string,
    estimatedTimeMinutes: int,
    waypoints: seq<Waypoint>,
    routeGeometry: seq<Waypoint>)

  /** `Route.toEntity`. Its id expression `if (id == 0L) 0 else id` is the
      identity, so the id is kept as it is. */
  function ToEntity(r: Route): (e: RouteEntity)
    ensures e.id == r.id
    ensures e.name == r.name && e.difficulty == r.difficulty && e.routeType == r.routeType
    ensures e.distanceMiles == r.distanceMiles && e.elevationFeet == r.elevationFeet
    ensures e.estimatedTimeMinutes == r.estimatedTimeMinutes
    ensures e.waypoints == r.waypoints && e.routeGeometry == r.routeGeometry
  {
    RouteEntity(
      if r.id == 0 then 0 else r.id,
      r.name, r.distanceMiles, r.elevationFeet, r.difficulty, r.routeType,
      r.estimatedTimeMinutes, r.waypoints, r.routeGeometry)
  }

  /** `RouteEntity.toModel`: storing the result gives back the same row. */
  function ToModel(e: RouteEntity): (r: Route)
    ensures ToEntity(r) == e
  {
    Route(
      e.id, e.name, e.distanceMiles, e.elevationFeet, e.difficulty, e.routeType,
      e.estimatedTimeMinutes, e.waypoints, e.routeGeometry)
  }

  /** Reading back a stored route gives the same route. */
  lemma ModelRoundTrip(r: Route)
    ensures ToModel(ToEntity(r)) == r
  {
  }

  /** `entities.map { it.toModel() }`: same length, same order, one route per row. */
  function ToModels(entities: seq<RouteEntity>): (routes: seq<Route>)
    ensures |routes| == |entities|
    ensures forall i | 0 <= i < |entities| :: ToEntity(routes[i]) == entities[i]
  {
    seq(|entities|, i requires 0 <= i < |entities| => ToModel(entities[i]))
  }
}

=== FILE: route_state.dfy ===
/** The route composer's screen state and the three ways its derived fields
    (geometry, distance, climb, minutes) get recomputed: straight lines over
    the waypoints, a routing-service answer, or the incremental fallback when
    the service fails. */
module RouteState {
  import opened Nullable
  import opened Model
  import opened Text
  import opened Geodesy
  import opened OrsApi

  /** `CreateRouteUiState`. `routeType` is `None` until the user picks one. */
  datatype UiState = UiState(
    routeName: string,
    routeType: Option<string>,
    waypoints: seq<Waypoint>,
    routeGeometry: seq<Waypoint>,
    distanceMiles: real,
    elevationFeet: real,
    estimatedTimeMinutes: int,
    manualMode: bool,
    saveCompleted: bool,
    isCalculating: bool,
    showRouteTypeDialog: bool,
    layer: MapLayer,
    canUndo: bool,
    canRedo: bool)

  /** The state of a freshly opened composer: no pins, type dialog showing. */
  const DefaultUi: UiState :=
    UiState("", None, [], [], 0.0, 0.0, 0, false, false, false, true, Standard, false, false)

  /** What the composer runs against: the routing API key it was built with
      and the point-to-point distance in metres. */
  datatype Env = Env(apiKey: string, hav: Metric)

  /** The type used for time estimates: the chosen one, "walk" when unset. */
  function TypeOrWalk(routeType: Option<string>): string {
    routeType.Elvis("walk")
  }

  /** Only an explicitly chosen "drive" estimates at driving speed; a route
      with no type yet is timed at walking speed. */
  lemma TypeOrWalkSpeed(routeType: Option<string>)
    ensures SpeedMph(TypeOrWalk(routeType)) == DriveSpeedMph <==> routeType == Some("drive")
    ensures routeType.None? ==> SpeedMph(TypeOrWalk(routeType)) == WalkSpeedMph
  {
  }

  /** Everything a recomputation must leave alone: the user's inputs, the
      display choices and the history flags. */
  predicate SameControls(a: UiState, b: UiState) {
    && a.routeName == b.routeName
    && a.routeType == b.routeType
    && a.waypoints == b.waypoints
    && a.manualMode == b.manualMode
    && a.showRouteTypeDialog == b.showRouteTypeDialog
    && a.layer == b.layer
    && a.canUndo == b.canUndo
    && a.canRedo == b.canRedo
  }

  /** The derived fields are the straight-line reading of `points`: geometry
      is the points themselves and all three scalars come from them. */
  predicate StraightLineOver(ui: UiState, points: seq<Waypoint>, hav: Metric) {
    && ui.routeGeometry == points
    && ui.distanceMiles == DistanceMiles(points, hav)
    && ui.elevationFeet == ElevationGain(points)
    && ui.estimatedTimeMinutes == EstimateTravelMinutes(ui.distanceMiles, TypeOrWalk(ui.routeType))
  }

  /** `recalculateManual`: geometry and every scalar taken from `points`.
      `isCalculating` is left as it was. */
  function RecalculateManual(ui: UiState, points: seq<Waypoint>, hav: Metric): (r: UiState)
    ensures SameControls(ui, r)
    ensures StraightLineOver(r, points, hav)
    ensures !r.saveCompleted && r.isCalculating == ui.isCalculating
  {
    var distance := DistanceMiles(points, hav);
    ui.(
      distanceMiles := distance,
      elevationFeet := ElevationGain(points),
      estimatedTimeMinutes := EstimateTravelMinutes(distance, TypeOrWalk(ui.routeType)),
      routeGeometry := points,
      saveCompleted := false)
  }

  /** `fallbackToManualSegment`. With fewer than two points or no previous
      geometry it is a full manual recompute; otherwise the newest point
      extends the previous geometry by one straight segment, and distance and
      climb grow by that segment only. */
  function Fallback(
    ui: UiState, points: seq<Waypoint>,
    prevGeometry: seq<Waypoint>, prevDistance: real, prevElevation: real,
    hav: Metric): (r: UiState)
    ensures SameControls(ui, r) && !r.saveCompleted
    ensures |points| < 2 || |prevGeometry| == 0 ==> r == RecalculateManual(ui, points, hav)
    ensures |points| >= 2 && |prevGeometry| > 0 ==>
      var before, newest := points[|points| - 2], points[|points| - 1];
      && |r.routeGeometry| == |prevGeometry| + 1
      && r.routeGeometry[..|prevGeometry|] == prevGeometry
      && r.routeGeometry[|prevGeometry|] == newest
      && r.distanceMiles - prevDistance == hav(before, newest) / MetersPerMile
      && r.elevationFeet - prevElevation == Rise(before, newest)
      && r.estimatedTimeMinutes == EstimateTravelMinutes(r.distanceMiles, TypeOrWalk(ui.routeType))
      && !r.isCalculating
  {
    if |points| < 2 || |prevGeometry| == 0 then
      RecalculateManual(ui, points, hav)
    else
      var lastPrevious := points[|points| - 2];
      var newPoint := points[|points| - 1];
      var totalDistance := prevDistance + hav(lastPrevious, newPoint) / MetersPerMile;
      var totalElevation := prevElevation + Rise(lastPrevious, newPoint);
      ui.(
        routeGeometry := prevGeometry + [newPoint],
        distanceMiles := totalDistance,
        elevationFeet := totalElevation,
        estimatedTimeMinutes := EstimateTravelMinutes(totalDistance, TypeOrWalk(ui.routeType)),
        isCalculating := false,
        saveCompleted := false)
  }

  /** Adopting a service answer: its path replaces the geometry, the climb is
      re-summed over that path, the distance is the service's own total. */
  function ApplyRemote(ui: UiState, route: RemoteRoute): (r: UiState)
    ensures SameControls(ui, r)
    ensures r.routeGeometry == route.geometry
    ensures r.elevationFeet == ElevationGain(route.geometry)
    ensures r.distanceMiles == route.distanceMiles
    ensures r.estimatedTimeMinutes == EstimateTravelMinutes(route.distanceMiles, TypeOrWalk(ui.routeType))
    ensures !r.isCalculating && !r.saveCompleted
  {
    ui.(
      routeGeometry := route.geometry,
      distanceMiles := route.distanceMiles,
      elevationFeet := ElevationGain(route.geometry),
      estimatedTimeMinutes := EstimateTravelMinutes(route.distanceMiles, TypeOrWalk(ui.routeType)),
      isCalculating := false,
      saveCompleted := false)
  }

  /** `calculateRouteWithORS`, run to completion. A blank key means a manual
      recompute and no call. Otherwise the previous geometry and scalars are
      captured, `isCalculating` is raised, and the outcome is either adopted
      or handed to the fallback. */
  function CalculateWithOrs(ui: UiState, points: seq<Waypoint>, env: Env, remote: Outcome): (r: UiState)
    ensures SameControls(ui, r) && !r.saveCompleted
    ensures IsBlank(env.apiKey) ==> r == RecalculateManual(ui, points, env.hav)
    ensures !IsBlank(env.apiKey) && Usable(remote) ==>
      r == ApplyRemote(ui, Interpret(remote).value)
    ensures !IsBlank(env.apiKey) && !Usable(remote) ==>
      r == Fallback(ui.(isCalculating := true), points, ui.routeGeometry, ui.distanceMiles, ui.elevationFeet, env.hav)
  {
    if IsBlank(env.apiKey) then
      RecalculateManual(ui, points, env.hav)
    else
      var previousGeometry, previousDistance, previousElevation := ui.routeGeometry, ui.distanceMiles, ui.elevationFeet;
      var busy := ui.(isCalculating := true);
      match Interpret(remote)
      case Some(route) => ApplyRemote(busy, route)
      case None => Fallback(busy, points, previousGeometry, previousDistance, previousElevation, env.hav)
  }

  /** When the previous geometry and scalars are the straight-line reading of
      all but the newest point, the incremental fallback lands exactly where a
      full manual recompute over all the points would (apart from clearing
      `isCalculating`). */
  lemma FallbackMatchesManual(ui: UiState, points: seq<Waypoint>, hav: Metric)
    requires |points| >= 2
    requires StraightLineOver(ui, points[..|points| - 1], hav)
    ensures Fallback(ui, points, ui.routeGeometry, ui.distanceMiles, ui.elevationFeet, hav)
         == RecalculateManual(ui, points, hav).(isCalculating := false)
  {
    var prefix := points[..|points| - 1];
    var newest := points[|points| - 1];
    assert prefix + [newest] == points;
    assert prefix[|prefix| - 1] == points[|points| - 2];
    DistanceAppend(prefix, newest, hav);
    GainAppend(prefix, newest);
  }

  /** When the service fails and the fallback has no earlier geometry to
      extend, the recompute is manual and `isCalculating` stays raised: the
      "Calculating..." label is left showing. */
  lemma SpinnerLeftOn(ui: UiState, points: seq<Waypoint>, env: Env, remote: Outcome)
    requires !IsBlank(env.apiKey) && !Usable(remote)
    requires |ui.routeGeometry| == 0
    ensures CalculateWithOrs(ui, points, env, remote).isCalculating
  {
  }

  /** On every other non-blank-key path the flag ends cleared. */
  lemma SpinnerClearedOtherwise(ui: UiState, points: seq<Waypoint>, env: Env, remote: Outcome)
    requires !IsBlank(env.apiKey)
    requires Usable(remote) || (|points| >= 2 && |ui.routeGeometry| > 0)
    ensures !CalculateWithOrs(ui, points, env, remote).isCalculating
  {
  }
}

=== FILE: text.dfy ===
/** The few Kotlin string operations the route filters and the save guard
    rely on: `isBlank`, `lowercase` and `contains(…, ignoreCase = true)`.
    Case mapping is modelled for the ASCII letters only. */
module Text {

  /** Kotlin's `Char.isWhitespace` on the JVM: Java's `isWhitespace` or
      `isSpaceChar`, i.e. the ASCII controls TAB..CR and FS..US plus every
      space, line and paragraph separator of Unicode. */
  predicate IsWhitespace(c: char) {
    || ('\t' <= c <= '\r')
    || ('\U{1C}' <= c <= ' ')
    || c == '\U{A0}'
    || c == '\U{1680}'
    || ('\U{2000}' <= c <= '\U{200A}')
    || c == '\U{2028}'
    || c == '\U{2029}'
    || c == '\U{202F}'
    || c == '\U{205F}'
    || c == '\U{3000}'
  }

  /** `String.isBlank`: empty or whitespace only. */
  predicate IsBlank(s: string) {
    forall i | 0 <= i < |s| :: IsWhitespace(s[i])
  }

  /** A string is blank exactly when both of its parts are. */
  lemma BlankConcat(s: string, t: string)
    ensures IsBlank(s + t) <==> IsBlank(s) && IsBlank(t)
  {
    if IsBlank(s + t) {
      assert forall i | 0 <= i < |s| :: s[i] == (s + t)[i];
      assert forall i | 0 <= i < |t| :: t[i] == (s + t)[|s| + i];
    }
  }

  /** Any string holding an ASCII letter is not blank. */
  lemma LetterNotBlank(s: string, i: int)
    requires 0 <= i < |s| && (IsUpperAscii(s[i]) || IsLowerAscii(s[i]))
    ensures !IsBlank(s)
  {
  }

  /** Spaces, tabs and newlines alone are blank, and so is the empty string;
      a single letter anywhere makes a string non-blank. */
  lemma BlankExamples()
    ensures IsBlank("") && IsBlank(" \t\n")
    ensures !IsBlank("Loop") && !IsBlank(" a ")
  {
    assert !IsWhitespace("Loop"[0]);
    assert !IsWhitespace(" a "[1]);
  }

  predicate IsUpperAscii(c: char) {
    'A' <= c <= 'Z'
  }

  predicate IsLowerAscii(c: char) {
    'a' <= c <= 'z'
  }

  function LowerChar(c: char): (r: char)
    ensures !IsUpperAscii(r)
    ensures IsUpperAscii(c) ==> r as int == c as int + 32 && IsLowerAscii(r)
    ensures !IsUpperAscii(c) ==> r == c
  {
    if IsUpperAscii(c) then (c as int + 32) as char else c
  }

  function UpperChar(c: char): (r: char)
    ensures !IsLowerAscii(r)
    ensures !IsLowerAscii(c) ==> r == c
    ensures IsLowerAscii(c) ==> r as int == c as int - 32 && IsUpperAscii(r)
  {
    if IsLowerAscii(c) then (c as int - 32) as char else c
  }

  /** `String.lowercase()`: the same string with every upper-case letter
      replaced by its lower-case form. */
  function Lowercase(s: string): (r: string)
    ensures |r| == |s|
    ensures forall i | 0 <= i < |s| :: !IsUpperAscii(r[i])
    ensures forall i | 0 <= i < |s| :: !IsUpperAscii(s[i]) ==> r[i] == s[i]
    ensures forall i | 0 <= i < |s| :: IsUpperAscii(s[i]) ==> r[i] as int == s[i] as int + 32
  {
    seq(|s|, i requires 0 <= i < |s| => LowerChar(s[i]))
  }

  /** Lower-casing a string that is already lower case changes nothing. */
  lemma LowercaseIdempotent(s: string)
    ensures Lowercase(Lowercase(s)) == Lowercase(s)
  {
  }

  /** Character comparison of `regionMatches(ignoreCase = true)`: equal as is,
      after upper-casing, or after upper- then lower-casing. */
  predicate CharsEqualIgnoreCase(a: char, b: char) {
    a == b || UpperChar(a) == UpperChar(b) || LowerChar(UpperChar(a)) == LowerChar(UpperChar(b))
  }

  /** `needle` occurs in `hay` at offset `at`, ignoring case. */
  predicate MatchesAt(hay: string, needle: string, at: nat)
    requires at + |needle| <= |hay|
  {
    forall j | 0 <= j < |needle| :: CharsEqualIgnoreCase(hay[at + j], needle[j])
  }

  /** `hay.contains(needle, ignoreCase = true)`. */
  predicate ContainsIgnoreCase(hay: string, needle: string) {
    exists at: nat | at + |needle| <= |hay| :: MatchesAt(hay, needle, at)
  }

  /** Over the ASCII letters the three-way comparison is plain equality
      after lower-casing both characters. */
  lemma CharsEqualIgnoreCaseIsLowerEqual(a: char, b: char)
    ensures CharsEqualIgnoreCase(a, b) <==> LowerChar(a) == LowerChar(b)
  {
  }

  /** `needle` equals the slice of `hay` at `at` once both are lower-cased. */
  predicate LowerOccursAt(hay: string, needle: string, at: nat)
    requires at + |needle| <= |hay|
  {
    Lowercase(hay)[at..at + |needle|] == Lowercase(needle)
  }

  lemma MatchesAtIsLowerOccurs(hay: string, needle: string, at: nat)
    requires at + |needle| <= |hay|
    ensures MatchesAt(hay, needle, at) <==> LowerOccursAt(hay, needle, at)
  {
  }

  /** Reference definition of the search: `hay` contains `needle` ignoring
      case exactly when the lower-cased `needle` is a slice of the lower-cased
      `hay`. */
  lemma ContainsIsLowercasedSlice(hay: string, needle: string)
    ensures ContainsIgnoreCase(hay, needle) <==>
      exists at: nat | at + |needle| <= |hay| :: LowerOccursAt(hay, needle, at)
  {
    forall at: nat | at + |needle| <= |hay|
      ensures MatchesAt(hay, needle, at) <==> LowerOccursAt(hay, needle, at)
    {
      MatchesAtIsLowerOccurs(hay, needle, at);
    }
  }

  /** A needle longer than the name is never found. */
  lemma LongerNeedleNotFound(hay: string, needle: string)
    requires |needle| > |hay|
    ensures !ContainsIgnoreCase(hay, needle)
  {
  }

  /** A needle holding a character that equals no character of the name,
      ignoring case, is never found: "Pike" does not find "bridge". */
  lemma MissingCharNotFound(hay: string, needle: string, j: nat)
    requires j < |needle|
    requires forall i | 0 <= i < |hay| :: LowerChar(hay[i]) != LowerChar(needle[j])
    ensures !ContainsIgnoreCase(hay, needle)
  {
    if ContainsIgnoreCase(hay, needle) {
      var at: nat :| at + |needle| <= |hay| && MatchesAt(hay, needle, at);
      assert CharsEqualIgnoreCase(hay[at + j], needle[j]);
      CharsEqualIgnoreCaseIsLowerEqual(hay[at + j], needle[j]);
      assert false;
    }
  }

  /** Every string contains itself and contains the empty string. */
  lemma ContainsItself(s: string)
    ensures ContainsIgnoreCase(s, s)
    ensures ContainsIgnoreCase(s, "")
  {
    assert MatchesAt(s, s, 0);
    assert MatchesAt(s, "", 0);
  }

  /** The search ignores ASCII case in both directions: "Park" finds "PARK". */
  lemma ContainsLowercasedName(s: string)
    ensures ContainsIgnoreCase(s, Lowercase(s))
    ensures ContainsIgnoreCase(Lowercase(s), s)
  {
    assert MatchesAt(s, Lowercase(s), 0);
    assert MatchesAt(Lowercase(s), s, 0);
  }
}
